=== FILE: README.md ===
# avalanche-cli-tree: the command-tree generator, modelled in Dafny

`generateTree.js` builds a JSON description of the Avalanche command-line
tool. It runs `avalanche --version` and keeps the first dotted
three-number version it sees. It then runs `<command> -h` for `avalanche`
and, recursively, for every subcommand listed under "Available Commands:".
Each help text is cut into three regions:

- the description (the text before the first section header);
- the subcommand listing (after "Available Commands:");
- the flag lines (after "Flags:").

The flag lines are read by `parseFlags`, a small state machine. It
recognises header lines with the regular expression
`^\s*(-[\w-]+,?\s*)?(--[\w-]+)(\s+[\w<>]+)?(\s+.*)?$`. It writes, under
the long name, an entry holding the type and the description. Under the
short name, when there is one, it writes an alias record.

This project models that core:

- `Text`: the string built-ins the generator uses (`trim`, `split("\n")`,
  `join`, `replace(",", "")`), with the regular-expression character
  classes restricted to ASCII.
- `OrderedDict`: a JavaScript object used as a dictionary. Keys are
  enumerated in the order they were first assigned, and assigning to a
  present key keeps its place.
- `Version`: the version match of `getCliVersion`. It is a scanner for
  `\d+\.\d+\.\d+` proved to return the leftmost, greedy match.
- `FlagHeader`: the header regular expression, written as an explicit
  backtracking scanner. The languages of its four groups are given
  declaratively. The scanner is proved sound, and complete with respect to
  the match a backtracking engine returns first.
- `FlagParser`: `parseFlags`, written as a method with the loop of the
  source. It is proved equal to a specification that cuts the lines into one
  block per header, followed by the properties of that specification.
- `CommandDetails`: `fetchCommandDetails`. Its loop is written as a method
  and proved equal to a specification that filters the lines by region,
  followed by the properties of that specification.
- `CommandTree`: `buildCommandTree`, written as two mutually recursive
  methods. They are proved equal to a functional definition that is generic
  in the way a command's details are obtained, followed by the properties
  of the tree.

Running a process is modelled by an oracle
`help: string -> Option<string>` (or `run` for the version command). It
maps a command line to the trimmed standard output of that process, or to
None when the process fails. That is what `runCommand`
(generateTree.js:6-16) resolves or rejects with.

The source recursion has no bound. The model gives every call a depth
budget `fuel`; when the budget runs out, the build yields None.
`TreeMoreFuel` shows that a tree built within some budget is the tree
built within a budget one level larger, and `TreeFuelMonotone` extends this
to any larger budget.

Some details of the code are easy to misread:

- Flag keys keep their leading dashes (`--verbose`, `-v`).
- The record written under a short name is `{alias: <long name>}`.
- Group 3 (`\s+[\w<>]+`) takes the first `[\w<>]+` word after the long
  flag whenever that word is followed by whitespace or ends the line. So
  `-v, --verbose  enable verbose output` gets type `enable` and
  description `verbose output` (`VerboseHeaderExample`), while
  `--foo bar=baz` gets type "" and description `bar=baz`.
- An alias record names a flag entry only when no header's short name is
  also a header's long name (`FlagAliasTargetIsFlag`). Group 1
  (`-[\w-]+`) accepts a long-looking name, so `--aa, --bb` after
  `-x, --aa` makes `--aa` an alias of `--bb`, and `-x` then names an alias
  (`AliasChainExample`).
- The two section switches can flip more than once. A later "Available
  Commands:" line after "Flags:" switches back to the listing region, and
  a later "Flags:" switches back again.

## Model

| member | source | states |
|---|---|---|
| Text.Trim | generateTree.js:77 | `trim()` leaves no whitespace at either end and never lengthens the text |
| Text.TrimOf | generateTree.js:77 | `trim()` removes exactly the whitespace around a text that starts and ends with non-whitespace |
| Text.TrimEmptyIffAllSpace | generateTree.js:58 | a line trims to the falsy "" exactly when it is all whitespace |
| Text.Split | generateTree.js:77 | `split("\n")` yields at least one piece, and no piece holds the separator |
| Text.JoinSplit | generateTree.js:77 | joining the pieces of a split with the separator gives back the text |
| Text.Join | generateTree.js:124 | `join(sep)`: the parts with the separator between neighbours; its properties are `JoinSplit` and `CommandDetails.JoinEnds` |
| Text.RemoveFirst | generateTree.js:49 | `replace(",", "")` removes one character when the text holds a comma and changes nothing otherwise |
| Text.RemoveFirstAt | generateTree.js:49 | what `replace(",", "")` removes is the first comma, and only that one |
| Text.RunEnd | generateTree.js:37 | a greedy `P*` run: every character inside it is in the class, and the next one is not |
| Text.RunEndUnique | generateTree.js:37 | a run that stops at the end or at a character outside the class is the greedy run |
| OrderedDict.Keys | generateTree.js:142-144 | `Object.entries` enumerates one key per entry, in entry order |
| OrderedDict.Get | generateTree.js:146 | a lookup fails exactly when the key is absent |
| OrderedDict.Put | generateTree.js:146 | `d[k] = v` on an object: replaces the value in place when `k` is present, appends `(k, v)` otherwise; its properties are the `Put…` lemmas below |
| OrderedDict.PutGetKeys | generateTree.js:113-115 | after `d[k] = v`, `d[k]` is `v`; a new key goes last in enumeration order, and a present key keeps its place |
| OrderedDict.GetPutOther | generateTree.js:146 | an assignment leaves the value of every other key as it was |
| OrderedDict.PutKeepsKeysDistinct | generateTree.js:41-44 | an assignment never duplicates a key |
| OrderedDict.PutNew | generateTree.js:146 | assigning a key not yet present appends one entry at the end |
| OrderedDict.PutPut | generateTree.js:146-149 | assigning a key twice keeps the second value, in the place the first assignment gave the key |
| OrderedDict.GetSnoc | generateTree.js:142-146 | in an extended dictionary, the first entry with a key is the one a lookup finds |
| Version.MatchAt | generateTree.js:21 | a match found at a position spans a dotted three-number token and is not followed by a digit; when none is found, no token starts there |
| Version.FirstMatchFrom | generateTree.js:21 | the match returned is a match at its start, and no token starts anywhere before it; when none is returned, the text holds no token |
| Version.VersionOf | generateTree.js:20-26 | the version reported for an output: "Unknown" when the command fails, otherwise "Unknown" or `v` followed by a dotted three-number version |
| Version.CliVersion | generateTree.js:18-27 | `getCliVersion` over the process oracle: "Unknown" when `avalanche --version` fails, otherwise "Unknown" or `v` followed by a dotted three-number version |
| Version.VersionIsLeftmostMatch | generateTree.js:20-22 | a known version is `v` followed by a dotted three-number substring of the output that is greedy and starts leftmost |
| Version.UnknownIffNoMatch | generateTree.js:18-27 | "Unknown" is reported exactly when the command fails or its output holds no dotted three-number substring |
| Version.FourComponentsKeepThree | generateTree.js:21-22 | the output "1.2.3.4" gives "v1.2.3" |
| FlagHeader.SpaceIsInNoOtherClass | generateTree.js:37 | proof step: whitespace is neither `[\w-]`, nor `[\w<>]`, nor a comma |
| FlagHeader.RestTextIff | generateTree.js:37 | the scanner's test for group 4 accepts exactly the language `\s+.*` |
| FlagHeader.MatchTailSound | generateTree.js:37 | what the scanner of groups 3 and 4 returns matches them and spells the text after the long flag |
| FlagHeader.MatchTailComplete | generateTree.js:37 | whenever groups 3 and 4 match, the scanner finds a match, and takes group 3 whenever some match has it |
| FlagHeader.MatchLongAtSound | generateTree.js:37 | what the scanner of groups 2 to 4 returns is a `--[\w-]+` group followed by a tail match |
| FlagHeader.MatchLongAtComplete | generateTree.js:37 | whenever groups 2 to 4 match, the scanner returns the same group 2, and group 3 whenever that match has it |
| FlagHeader.ShortEnd | generateTree.js:37 | the end of group 1 lies after its `-` and its `[\w-]` part, and within the line |
| FlagHeader.TryShort | generateTree.js:37 | backtracking over group 1 returns a length after which groups 2 to 4 match, and no working length is longer |
| FlagHeader.MatchFlagsSound | generateTree.js:37 | the captures of groups 1 to 4 spell the line after its leading whitespace, and each is in its group's language |
| FlagHeader.MatchHeaderSound | generateTree.js:36-38 | what the scanner returns is a match of the whole expression on the line |
| FlagHeader.MatchHeader | generateTree.js:36-38 | the match of the header expression on a line, or None; proved sound by `MatchHeaderSound` and complete by `MatchHeaderComplete` |
| FlagHeader.MatchFlagsComplete | generateTree.js:36-38 | whenever groups 1 to 4 match, the scanner returns a match that a backtracking engine reaches no later |
| FlagHeader.ShortTaken | generateTree.js:37 | with a working group 1, the scanner takes group 1, ending at the same place or further |
| FlagHeader.MatchHeaderComplete | generateTree.js:36-39 | a line that matches the expression is recognised, with the captures a backtracking engine returns first (longest group 1, then a present group 3) |
| FlagParser.ParseFlags | generateTree.js:29-71 | the loop returns exactly the table the blocks specify: for each header in turn, its alias, then its long name's entry |
| FlagParser.HeaderOf | generateTree.js:48-53 | the name, type and inline description a header line yields, or None for other lines; its properties are `ShortFlagName`, `TypeIsWord`, `NoTypeGroupNoType` and the two examples |
| FlagParser.Table | generateTree.js:40-68 | the table the blocks write, one block after the other; its properties are `TableStep`, `TableLastWrite`, `TableKeys` and `TableDistinct` |
| FlagParser.FlagTable | generateTree.js:29-71 | the table `parseFlags` returns for a sequence of lines; `ParseFlags` is proved equal to it, and `FlagTableLastWrite`, `FlagTableKeys`, `FlagTableDistinct` state its contents |
| FlagParser.LineStep | generateTree.js:35-60 | each line extends the blocks as the loop does: a header line opens a block, and a text line extends the open one |
| FlagParser.CommitIsTable | generateTree.js:40-47 | proof step: committing the open flag completes the table of the blocks read so far |
| FlagParser.OpenState | generateTree.js:48-57 | proof step: a header line resets the type and description to the new header's and writes its alias |
| FlagParser.ExtendState | generateTree.js:58-59 | proof step: a non-blank line after a header adds its trimmed text to the description |
| FlagParser.KeepState | generateTree.js:58-60 | proof step: any other non-header line changes nothing |
| FlagParser.BlocksSnoc | generateTree.js:35-60 | the blocks can be built one line at a time, as the loop does |
| FlagParser.ContinuationSnoc | generateTree.js:58-59 | the description of a block grows with a text line only until the next header |
| FlagParser.BlocksEmptyIff | generateTree.js:39-40 | there are no blocks exactly when no line is a header |
| FlagParser.BlocksHeaders | generateTree.js:39-57 | there is one block per header line, in order |
| FlagParser.BlocksSplit | generateTree.js:39-47 | a header closes the block before it: text after it never reaches earlier blocks |
| FlagParser.TextPrefixDiscarded | generateTree.js:58 | text before the first header belongs to no flag |
| FlagParser.BlankKindIgnored | generateTree.js:58 | a blank line changes no block |
| FlagParser.TableStep | generateTree.js:40-57 | after one more block, a key holds that block's entry if it is the long name, the alias record if it is the short name, and its earlier value otherwise |
| FlagParser.TableLastWrite | generateTree.js:40-68 | each key holds the last write to it: the entry when it was last a long name, the alias record when it was last a short name |
| FlagParser.TableKeys | generateTree.js:41-64 | the keys are exactly the long and short names of the headers |
| FlagParser.TableDistinct | generateTree.js:41-64 | no key appears twice in the table |
| FlagParser.AliasTargetIsFlag | generateTree.js:40-57 | when no header's short name is a header's long name, every alias record names a key that holds a flag entry and is some header's long name |
| FlagParser.FlagAliasTargetIsFlag | generateTree.js:29-71 | the same for the table `parseFlags` returns: under that condition every alias points at a `{type, description}` entry |
| FlagParser.AliasChain | generateTree.js:48-57 | without that condition the invariant fails: a second header whose short name is the first header's long name replaces that entry by an alias, so the first alias points at an alias |
| FlagParser.AliasChainExample | generateTree.js:36-57 | `-x, --aa  int <d1>` then `--aa, --bb  int <d2>` give `-x` an alias of `--aa` and `--aa` an alias of `--bb` |
| FlagParser.ClassifyHeader | generateTree.js:39-58 | proof step: a line is a header exactly when the expression matches it; any other line is kept as its trimmed text |
| FlagParser.FlagTableLastWrite | generateTree.js:35-68 | a header's long name gets its type and its description, made of the inline text and the non-blank lines up to the next header joined with spaces and trimmed, unless a later header writes the same key |
| FlagParser.FlagTableKeys | generateTree.js:35-68 | the keys of the table are exactly the names the header lines write |
| FlagParser.NoHeaderNoFlags | generateTree.js:63-70 | the table is empty exactly when no line is a header |
| FlagParser.PreambleDiscarded | generateTree.js:58 | lines before the first header do not change the table |
| FlagParser.BlankLineIgnored | generateTree.js:58-59 | a blank line neither ends a flag nor adds to its description |
| FlagParser.BlankIsNotHeader | generateTree.js:36-39 | a blank line never matches the header expression |
| FlagParser.FlagTableDistinct | generateTree.js:41-67 | the table never holds a key twice |
| FlagParser.ShortFlagName | generateTree.js:48-50 | the short name is group 1 without its comma and whitespace, and it is the key the alias is written under |
| FlagParser.ShortName | generateTree.js:49 | `trim().replace(",", "")` on group 1 keeps exactly the `-` and the `[\w-]` run |
| FlagParser.TypeIsWord | generateTree.js:52 | the type is the word of group 3 without its leading whitespace |
| FlagParser.NoTypeGroupNoType | generateTree.js:52 | without group 3 the type is "" |
| FlagParser.InlineIsRest | generateTree.js:53 | the inline description is group 4 trimmed, and nothing without group 4 |
| FlagParser.InlineOfTrimmedLine | generateTree.js:53 | on a trimmed line the inline description is group 4 without its leading whitespace |
| FlagParser.HeaderNoShort | generateTree.js:36-53 | a line `--name`, whitespace, a type word, whitespace and a description yields no short name, that long name, that type and that description |
| FlagParser.HeaderWithShort | generateTree.js:36-53 | a line `-x,` (with `x` a `[\w-]+` run), whitespace and then the same shape yields the short name `-x` as well |
| FlagParser.HelpHeaderExample | generateTree.js:36-53 | `--help   help for tool` yields long name `--help`, type `help` and description `for tool` |
| FlagParser.VerboseHeaderExample | generateTree.js:36-53 | `-v, --verbose  enable <text>` yields short name `-v`, long name `--verbose`, type `enable` and description `<text>` |
| CommandDetails.Lines | generateTree.js:77 | one trimmed line per piece of `split("\n")` |
| CommandDetails.ListingEntry | generateTree.js:109-112 | `split(/\s+(.+)/)` on a listing line: the name and the text of a subcommand, or None for a single word; its properties are `ListingEntryNone`, `ListingEntrySound` and `ListingEntryComplete` |
| CommandDetails.ListingTable | generateTree.js:108-116 | the subcommands object written from the listing lines in order; its properties are the `Listing…` lemmas below |
| CommandDetails.ListingEntryNone | generateTree.js:109-110 | a listing line yields no subcommand exactly when it is a single word |
| CommandDetails.ListingEntrySound | generateTree.js:109-112 | a subcommand is the word before the first whitespace run, and its text runs from the end of that run to the first line terminator |
| CommandDetails.ListingEntryComplete | generateTree.js:109-112 | every line with that shape splits into that name and that text |
| CommandDetails.ListingEntryExample | generateTree.js:109-115 | `deploy   Deploys a subnet` lists `deploy` with the text `Deploys a subnet` |
| CommandDetails.ListingDistinct | generateTree.js:113-115 | no subcommand name occurs twice |
| CommandDetails.ListingHasKey | generateTree.js:108-116 | the subcommands are exactly the names of the listing lines that split |
| CommandDetails.ListingOrder | generateTree.js:108-116 | when no name repeats, the subcommands come in listing order |
| CommandDetails.ListingLastWrite | generateTree.js:111-115 | a name holds the text of the last listing line that gives it |
| CommandDetails.ListingFirstPlace | generateTree.js:108-116 | the subcommands come in the order of the first listing line that gives each name; a repeated name keeps its first place |
| CommandDetails.DetailsOf | generateTree.js:127-130 | a failed help invocation gives an empty description, no flags and no subcommands |
| CommandDetails.RegionLines | generateTree.js:90-122 | the lines the section switches send to a region; its properties are `RegionStep`, `NoHeaderYet`, `AfterHeader`, `NeverEntered` and `SectionBlock` |
| CommandDetails.DetailsOfLines | generateTree.js:102-125 | the details of a help text's lines: the joined description, the flag table of the flag lines and the listing table of the listing lines |
| CommandDetails.CommandDetailsOf | generateTree.js:74-131 | `fetchCommandDetails` over the help oracle: the details of `<command> -h`, or the empty details when it fails; `FetchCommandDetails` is proved equal to it |
| CommandDetails.FetchCommandDetails | generateTree.js:74-131 | the method returns the details that the region specification gives for the command's help text, or the empty details when the help fails |
| CommandDetails.ScanLines | generateTree.js:90-122 | the loop collects exactly the description lines, the flag lines and the listing table of the region specification |
| CommandDetails.RegionStep | generateTree.js:90-121 | one more line moves the switches and adds to a region as the loop does |
| CommandDetails.FirstSectionHeader | generateTree.js:91-100 | the first line that is a section header, or the end when there is none |
| CommandDetails.NoHeaderYet | generateTree.js:102-106 | before any header, every non-blank line is description, and the other regions are empty |
| CommandDetails.AfterHeader | generateTree.js:91-106 | after a section header no line joins the description |
| CommandDetails.DescriptionBeforeFirstHeader | generateTree.js:102-106 | the description lines are the non-blank lines before the first section header |
| CommandDetails.DescriptionText | generateTree.js:124 | the description is those lines joined with single spaces; the final `trim()` removes nothing |
| CommandDetails.NeitherHeader | generateTree.js:90-122 | without either header, every non-blank line is description, with no subcommands and no flag lines |
| CommandDetails.NeverEntered | generateTree.js:91-99 | a region whose header never appears collects nothing |
| CommandDetails.SectionBlock | generateTree.js:90-122 | from a section header up to the next one, the lines go to that header's region: the listing takes the non-blank lines, and the flags take every line |
| CommandDetails.RegionLinesTrimmed | generateTree.js:77 | every line of a region is trimmed |
| CommandDetails.SubcommandsDistinct | generateTree.js:113-115 | the subcommands read from any help text never repeat a name |
| CommandDetails.NoCommandsHeaderNoSubcommands | generateTree.js:108-117 | a help text without an "Available Commands:" line has no subcommands |
| CommandDetails.NoFlagsHeaderNoFlags | generateTree.js:119-125 | a help text without a "Flags:" line has no flags |
| CommandDetails.JoinEnds | generateTree.js:124 | joining trimmed non-empty lines with spaces gives a trimmed text that starts with the first line, character for character |
| CommandTree.ChildCommand | generateTree.js:145 | a subcommand's path is the parent's command, one space, and the name |
| CommandTree.Backfill | generateTree.js:147-149 | patching a stored child changes only its description: an empty description becomes the listing text, and a non-empty one is kept |
| CommandTree.BuildTree | generateTree.js:133-153 | the tree of a command within a depth budget; `BuildCommandTree` is proved equal to it, and `TreeFollowsDetails`, `TreeBuiltIff` state its shape |
| CommandTree.BuildChildren | generateTree.js:142-150 | the children built from a listing, in order; `BuildSubcommands` is proved equal to it, and `ChildrenFollowListing`, `ChildrenBuiltIff` state its shape |
| CommandTree.BuildCommandTree | generateTree.js:133-153 | the recursion returns the tree the functional definition gives for the command over the help oracle |
| CommandTree.BuildSubcommands | generateTree.js:142-150 | the loop over the listing returns the children the functional definition gives, or None as soon as one child's budget runs out |
| CommandTree.NodeOf | generateTree.js:135-141 | proof step: a node is its own details with its children |
| CommandTree.StoreChild | generateTree.js:146-149 | proof step: storing a child and then patching its empty description in place is storing the child with the listing text |
| CommandTree.ChildAdded | generateTree.js:142-150 | one more built child extends the children by that child under its name |
| CommandTree.ChildFailsAll | generateTree.js:142-146 | a child whose tree cannot be built fails the whole listing |
| CommandTree.ChildrenFollowListing | generateTree.js:142-150 | the children are one per listed subcommand, in listing order, each the tree of its own path, given the listing text when its own description is empty |
| CommandTree.ChildrenBuiltIff | generateTree.js:142-146 | the children are built exactly when every listed subcommand's tree is |
| CommandTree.TreeFollowsDetails | generateTree.js:133-153 | each node carries its own description and flags; its children have the listed names in listing order, and each is built from its path one level down |
| CommandTree.TreeBuiltIff | generateTree.js:133-153 | a tree is built exactly when the budget is not spent and every listed subcommand's tree is built one level down |
| CommandTree.StoredChild | generateTree.js:146-149 | a stored child has the flags of its own help text, and its own description unless that is empty, in which case the parent's listing text |
| CommandTree.TreeMoreFuel | generateTree.js:133-153 | a tree built within a budget is built, the same, within a budget one level larger |
| CommandTree.ChildrenMoreFuel | generateTree.js:142-150 | children built within a budget are built, the same, within a budget one level larger |
| CommandTree.TreeFuelMonotone | generateTree.js:133-153 | a tree built within a budget is built, the same, within any larger budget |
| CommandTree.FetcherApplies | generateTree.js:135 | proof step: each node reads the details `fetchCommandDetails` returns for its command |
| CommandTree.HelpTreeFollowsHelp | generateTree.js:133-153 | over the help oracle, each node carries its own help text's description and flags, and its children are that text's subcommands, one per name, in listing order, each built from its path |
| CommandTree.FailedHelpLeaf | generateTree.js:127-141 | a command whose help fails becomes a node with an empty description, no flags and no subcommands |
| CommandTree.FailedChildKeepsListing | generateTree.js:145-149 | a subcommand whose help fails is still stored, with its parent's listing text as its description, no flags and no subcommands |
| CommandTree.NoListingLeaf | generateTree.js:108-142 | a help text without an "Available Commands:" line gives a leaf holding that text's description and flags |

## Left out

- Running processes (`runCommand`, `exec`) is not modelled. It is replaced
  by the oracle parameters `help` and `run`. The model trusts the oracle to
  return stdout already trimmed, as `runCommand` does, and does not apply
  that trim itself.
- `async`/`await` is not modelled. The source awaits each call before the
  next, so the model runs the same calls in the same order.
- The console messages (`console.log` and `console.warn`) are not modelled.
  They have no effect on the result.
- The entry point (generateTree.js:156-176) is not modelled: it pairs the
  version with the tree rooted at `avalanche`, the default argument of
  `buildCommandTree`, and writes them as a JSON file. File
  output, path handling and JSON formatting are I/O.
- App.js and the web viewer are not part of this model.
- CommandTree.BuildCommandTree: the source recursion is unbounded, and a
  help text that lists its own command would make it run forever. The
  model adds a depth budget and yields None once the budget is spent.
- Character classes are ASCII only. `\s` and `trim()` in JavaScript also
  cover Unicode spaces, and `.` also excludes U+2028 and U+2029. Strings
  are sequences of characters, with no UTF-16 detail.
- JavaScript objects enumerate integer-like keys ("1", "42") before all
  others, in numeric order, and treat `__proto__` specially. The ordered
  dictionary keeps plain insertion order for every key.
- A subcommand's listing entry `{description: text}` is kept as the text
  alone, since it has no other field.
- CommandDetails.ListingEntry: `split(/\s+(.+)/)` is modelled only for
  trimmed lines, the only ones its caller passes.
- Nodes are values. The source patches `node.subcommands[name].description`
  through a reference, and the model writes the patched child back under
  the same key. No two nodes share an object in the source, so the results
  agree.

=== FILE: command_details.dfy ===
/** `fetchCommandDetails`: the help text of one command is cut into lines,
    each line trimmed, and two switches pick the region a line belongs to:
    the description before any section header, the subcommand listing after
    "Available Commands:", the flag lines after "Flags:". */
module CommandDetails {
  import opened Wrappers
  import opened Text
  import opened OrderedDict
  import opened FlagParser

  const AvailableCommandsHeader := "Available Commands:"
  const FlagsHeader := "Flags:"

  /** What `fetchCommandDetails` returns: the description, the flag table,
      and the subcommands with the inline description of each. */
  datatype Details = Details(description: string, flags: Dict<FlagEntry>, subcommands: Dict<string>)

  /** The record returned when the help invocation fails. */
  const NoDetails := Details("", [], [])

  /** `output.split("\n").map((line) => line.trim())` */
  function Lines(output: string): (ls: seq<string>)
    ensures |ls| == |Split(output, '\n')|
    ensures forall i | 0 <= i < |ls| :: ls[i] == Trim(Split(output, '\n')[i]) && IsTrimmed(ls[i])
  {
    TrimAll(Split(output, '\n'))
  }

  function TrimAll(parts: seq<string>): (ls: seq<string>)
    ensures |ls| == |parts|
    ensures forall i | 0 <= i < |ls| :: ls[i] == Trim(parts[i]) && IsTrimmed(ls[i])
  {
    if parts == [] then [] else [Trim(parts[0])] + TrimAll(parts[1..])
  }

  // ---------------------------------------------------------------------
  // The subcommand listing

  /** `line.split(/\s+(.+)/)` on a trimmed line, when it has at least two
      parts: the text before the first whitespace run, and the text from the
      end of that run up to the first line terminator. */
  function ListingEntry(line: string): (r: Option<(string, string)>)
    requires IsTrimmed(line)
  {
    var w := RunEnd(line, 0, IsNotSpace);
    if w == |line| then None
    else
      var e := RunEnd(line, w, IsSpace);
      var t := RunEnd(line, e, IsNotLineTerminator);
      Some((line[..w], line[e..t]))
  }

  /** A listing line is `name`, whitespace, `text` and possibly more after a
      line terminator. */
  predicate ListingShape(line: string, name: string, ws: string, text: string) {
    |name| + |ws| + |text| <= |line| && line[..|name| + |ws| + |text|] == name + ws + text
    && name != [] && All(name, IsNotSpace) && ws != [] && All(ws, IsSpace)
    && text != [] && !IsSpace(text[0]) && All(text, IsNotLineTerminator)
    && (|name| + |ws| + |text| == |line| || IsLineTerminator(line[|name| + |ws| + |text|]))
  }

  /** A single-token line yields no subcommand. */
  lemma ListingEntryNone(line: string)
    requires IsTrimmed(line)
    ensures ListingEntry(line).None? <==> All(line, IsNotSpace)
  {
    var w := RunEnd(line, 0, IsNotSpace);
    if w == |line| {
      AllPrefix(line, w, IsNotSpace);
      assert line[..w] == line;
    }
  }

  /** What the split returns: the name before the first whitespace run, and
      the text after it up to the end of the line. */
  lemma ListingEntrySound(line: string)
    requires IsTrimmed(line) && ListingEntry(line).Some?
    ensures var (name, text) := ListingEntry(line).value;
      exists ws :: ListingShape(line, name, ws, text)
  {
    var w := RunEnd(line, 0, IsNotSpace);
    var e := RunEnd(line, w, IsSpace);
    var t := RunEnd(line, e, IsNotLineTerminator);
    assert w > 0 && e > w && e < |line| && t > e by {
      assert IsSpace(line[w]);
    }
    var name, ws, text := line[..w], line[w..e], line[e..t];
    AllPrefix(line, w, IsNotSpace);
    AllSlice(line, w, e, IsSpace);
    AllSlice(line, e, t, IsNotLineTerminator);
    assert line[..t] == name + ws + text;
    assert ListingShape(line, name, ws, text);
  }

  /** Conversely, every line of that shape splits into that name and text. */
  lemma ListingEntryComplete(line: string, name: string, ws: string, text: string)
    requires IsTrimmed(line) && ListingShape(line, name, ws, text)
    ensures ListingEntry(line) == Some((name, text))
  {
    var w, e, t := |name|, |name| + |ws|, |name| + |ws| + |text|;
    ShapeSlices(line, name, ws, text);
    AllPrefix(line, w, IsNotSpace);
    AllSlice(line, w, e, IsSpace);
    AllSlice(line, e, t, IsNotLineTerminator);
    assert line[w] == ws[0] && line[e] == text[0];
    RunEndUnique(line, 0, w, IsNotSpace);
    RunEndUnique(line, w, e, IsSpace);
    RunEndUnique(line, e, t, IsNotLineTerminator);
  }

  lemma ShapeSlices(line: string, name: string, ws: string, text: string)
    requires |name| + |ws| + |text| <= |line| && line[..|name| + |ws| + |text|] == name + ws + text
    ensures line[..|name|] == name
    ensures line[|name|..|name| + |ws|] == ws
    ensures line[|name| + |ws|..|name| + |ws| + |text|] == text
  {
    var t := |name| + |ws| + |text|;
    assert line[..|name|] == line[..t][..|name|];
    assert line[|name|..|name| + |ws|] == line[..t][|name|..|name| + |ws|];
    assert line[|name| + |ws|..t] == line[..t][|name| + |ws|..];
  }

  /** `deploy   Deploys a subnet` lists `deploy` with text `Deploys a subnet`. */
  lemma ListingEntryExample()
    ensures ListingEntry("deploy   Deploys a subnet") == Some(("deploy", "Deploys a subnet"))
  {
    ExampleShape();
    ListingEntryComplete("deploy   Deploys a subnet", "deploy", "   ", "Deploys a subnet");
  }

  lemma ExampleShape()
    ensures IsTrimmed("deploy   Deploys a subnet")
    ensures ListingShape("deploy   Deploys a subnet", "deploy", "   ", "Deploys a subnet")
  {
    var name, ws, text := "deploy", "   ", "Deploys a subnet";
    var line := name + ws + text;
    assert line == "deploy   Deploys a subnet";
    ExampleRuns();
    assert line[..|line|] == line;
  }

  lemma ExampleRuns()
    ensures All("deploy", IsNotSpace) && All("   ", IsSpace) && All("Deploys a subnet", IsNotLineTerminator)
  {
  }

  /** The subcommand table the listing lines write, in order: each line that
      splits assigns its text to its name. */
  function ListingTable(cls: seq<string>): Dict<string>
    requires forall i | 0 <= i < |cls| :: IsTrimmed(cls[i])
  {
    if cls == [] then []
    else
      var init := cls[..|cls| - 1];
      match ListingEntry(cls[|cls| - 1])
      case Some((name, text)) => Put(ListingTable(init), name, text)
      case None => ListingTable(init)
  }

  /** The names of the lines that split, in order, repetitions included. */
  function ListedNames(cls: seq<string>): seq<string>
    requires forall i | 0 <= i < |cls| :: IsTrimmed(cls[i])
  {
    if cls == [] then []
    else
      var init := cls[..|cls| - 1];
      match ListingEntry(cls[|cls| - 1])
      case Some((name, _)) => ListedNames(init) + [name]
      case None => ListedNames(init)
  }

  /** No name occurs twice among the subcommands. */
  lemma {:induction false} ListingDistinct(cls: seq<string>)
    requires forall i | 0 <= i < |cls| :: IsTrimmed(cls[i])
    ensures DistinctKeys(ListingTable(cls))
    decreases |cls|
  {
    if cls != [] {
      var init := cls[..|cls| - 1];
      ListingDistinct(init);
      match ListingEntry(cls[|cls| - 1])
      case Some((name, text)) =>
        PutKeepsKeysDistinct(ListingTable(init), name, text);
      case None =>
    }
  }

  /** The subcommands are the names of the listing lines that split. */
  lemma {:induction false} ListingHasKey(cls: seq<string>, k: string)
    requires forall i | 0 <= i < |cls| :: IsTrimmed(cls[i])
    ensures k in Keys(ListingTable(cls)) <==> k in ListedNames(cls)
    decreases |cls|
  {
    if cls != [] {
      var init := cls[..|cls| - 1];
      ListingHasKey(init, k);
      match ListingEntry(cls[|cls| - 1])
      case Some((name, text)) =>
        PutGetKeys(ListingTable(init), name, text);
      case None =>
    }
  }

  /** Without repeated names, the subcommands come in listing order. */
  lemma {:induction false} ListingOrder(cls: seq<string>)
    requires forall i | 0 <= i < |cls| :: IsTrimmed(cls[i])
    requires NoRepeats(ListedNames(cls))
    ensures Keys(ListingTable(cls)) == ListedNames(cls)
    decreases |cls|
  {
    if cls != [] {
      var init := cls[..|cls| - 1];
      match ListingEntry(cls[|cls| - 1])
      case Some((name, text)) =>
        NoRepeatsInit(ListedNames(init), name);
        ListingOrder(init);
        ListingHasKey(init, name);
        PutGetKeys(ListingTable(init), name, text);
      case None =>
        ListingOrder(init);
    }
  }

  /** A name keeps the text of the last listing line that gives it. */
  lemma {:induction false} ListingLastWrite(cls: seq<string>, i: nat, name: string, text: string)
    requires forall j | 0 <= j < |cls| :: IsTrimmed(cls[j])
    requires i < |cls| && ListingEntry(cls[i]) == Some((name, text))
    requires forall j | i < j < |cls| :: ListingEntry(cls[j]).None? || ListingEntry(cls[j]).value.0 != name
    ensures Get(ListingTable(cls), name) == Some(text)
    decreases |cls|
  {
    var init := cls[..|cls| - 1];
    if i == |cls| - 1 {
      PutGet(ListingTable(init), name, text);
    } else {
      assert init[i] == cls[i];
      assert forall j | i < j < |init| :: init[j] == cls[j];
      ListingLastWrite(init, i, name, text);
      match ListingEntry(cls[|cls| - 1])
      case Some((other, t)) =>
        GetPutOther(ListingTable(init), other, t, name);
      case None =>
    }
  }

  /** The names in the order of their first occurrence. */
  function FirstOccurrences(s: seq<string>): seq<string> {
    if s == [] then []
    else
      var init := s[..|s| - 1];
      FirstOccurrences(init) + (if s[|s| - 1] in init then [] else [s[|s| - 1]])
  }

  /** The subcommands come in the order of the first listing line that gives
      each name; a repeated name keeps its first place. */
  lemma {:induction false} ListingFirstPlace(cls: seq<string>)
    requires forall i | 0 <= i < |cls| :: IsTrimmed(cls[i])
    ensures Keys(ListingTable(cls)) == FirstOccurrences(ListedNames(cls))
    decreases |cls|
  {
    if cls != [] {
      var init := cls[..|cls| - 1];
      ListingFirstPlace(init);
      match ListingEntry(cls[|cls| - 1])
      case Some((name, text)) =>
        var names := ListedNames(init);
        assert (names + [name])[..|names|] == names;
        ListingHasKey(init, name);
        PutGetKeys(ListingTable(init), name, text);
      case None =>
    }
  }

  predicate NoRepeats(s: seq<string>) {
    forall i, j | 0 <= i < j < |s| :: s[i] != s[j]
  }

  lemma NoRepeatsInit(s: seq<string>, x: string)
    requires NoRepeats(s + [x])
    ensures NoRepeats(s) && x !in s
  {
    forall i | 0 <= i < |s| ensures s[i] != x {
      assert s[i] == (s + [x])[i] && x == (s + [x])[|s|];
    }
    forall i, j | 0 <= i < j < |s| ensures s[i] != s[j] {
      assert s[i] == (s + [x])[i] && s[j] == (s + [x])[j];
    }
  }

  // ---------------------------------------------------------------------
  // The regions

  /** The region the two switches select: neither, the commands switch, the
      flags switch. */
  datatype Region = DescriptionRegion | CommandsRegion | FlagsRegion

  predicate IsSectionHeader(line: string) {
    line == AvailableCommandsHeader || line == FlagsHeader
  }

  /** The region in force after the lines `ls`: the one named by the last
      section header among them, the description region before any. */
  function RegionAfter(ls: seq<string>): Region {
    if ls == [] then DescriptionRegion
    else
      var line := ls[|ls| - 1];
      if line == AvailableCommandsHeader then CommandsRegion
      else if line == FlagsHeader then FlagsRegion
      else RegionAfter(ls[..|ls| - 1])
  }

  /** What a line adds to the region it is in: the flags region keeps every
      line, the other two only the non-empty ones. */
  function Kept(r: Region, line: string): seq<string> {
    if r == FlagsRegion then [line] else Piece(line)
  }

  /** What a line adds to region `r` when region `current` is in force:
      nothing when it is a section header or `r` is not in force. */
  function Adds(r: Region, current: Region, line: string): seq<string> {
    if !IsSectionHeader(line) && current == r then Kept(r, line) else []
  }

  /** The lines of region `r`, in order; section headers belong to none. */
  function RegionLines(ls: seq<string>, r: Region): seq<string> {
    if ls == [] then []
    else
      var init := ls[..|ls| - 1];
      RegionLines(init, r) + Adds(r, RegionAfter(init), ls[|ls| - 1])
  }

  /** The details read from a help text. */
  function DetailsOf(output: Option<string>): (d: Details)
    ensures output.None? ==> d == NoDetails
  {
    match output
    case None => NoDetails
    case Some(text) => DetailsOfLines(Lines(text))
  }

  /** The details read from the trimmed lines of a help text. */
  function DetailsOfLines(ls: seq<string>): Details
    requires forall i | 0 <= i < |ls| :: IsTrimmed(ls[i])
  {
    RegionLinesTrimmed(ls, CommandsRegion);
    Details(Trim(Join(" ", RegionLines(ls, DescriptionRegion))),
            FlagTable(RegionLines(ls, FlagsRegion)),
            ListingTable(RegionLines(ls, CommandsRegion)))
  }

  /** The details of `command`, from the help oracle's answer to `command -h`. */
  function CommandDetailsOf(help: string -> Option<string>, command: string): Details {
    DetailsOf(help(command + " -h"))
  }

  /** Every line of a region is trimmed, since every line of the text is. */
  lemma {:induction false} RegionLinesTrimmed(ls: seq<string>, r: Region)
    requires forall i | 0 <= i < |ls| :: IsTrimmed(ls[i])
    ensures forall i | 0 <= i < |RegionLines(ls, r)| :: IsTrimmed(RegionLines(ls, r)[i])
    decreases |ls|
  {
    if ls != [] {
      RegionLinesTrimmed(ls[..|ls| - 1], r);
    }
  }

  // ---------------------------------------------------------------------
  // The loop

  /** `fetchCommandDetails(command)` over the help oracle. */
  method FetchCommandDetails(help: string -> Option<string>, command: string) returns (details: Details)
    ensures details == CommandDetailsOf(help, command)
  {
    var output := help(command + " -h");
    if output.None? {
      return NoDetails;
    }
    var lines := Lines(output.value);
    var descriptionLines, currentFlags, subcommands := ScanLines(lines);
    var flags := ParseFlags(currentFlags);
    details := Details(Trim(Join(" ", descriptionLines)), flags, subcommands);
  }

  /** The loop of `fetchCommandDetails` over the trimmed lines: it sorts them
      into the three regions and fills the subcommand table as it goes. */
  method ScanLines(lines: seq<string>) returns (descriptionLines: seq<string>, currentFlags: seq<string>, subcommands: Dict<string>)
    requires forall i | 0 <= i < |lines| :: IsTrimmed(lines[i])
    ensures descriptionLines == RegionLines(lines, DescriptionRegion)
    ensures currentFlags == RegionLines(lines, FlagsRegion)
    ensures forall j | 0 <= j < |RegionLines(lines, CommandsRegion)| :: IsTrimmed(RegionLines(lines, CommandsRegion)[j])
    ensures subcommands == ListingTable(RegionLines(lines, CommandsRegion))
  {
    subcommands := [];
    var inAvailableCommandsSection := false;
    var inFlagsSection := false;
    currentFlags := [];
    descriptionLines := [];
    ghost var region := DescriptionRegion;
    ghost var commandLines: seq<string> := [];
    for i := 0 to |lines|
      invariant region == RegionAfter(lines[..i])
      invariant !(inAvailableCommandsSection && inFlagsSection)
      invariant region ==
        if inAvailableCommandsSection then CommandsRegion
        else if inFlagsSection then FlagsRegion
        else DescriptionRegion
      invariant descriptionLines == RegionLines(lines[..i], DescriptionRegion)
      invariant currentFlags == RegionLines(lines[..i], FlagsRegion)
      invariant commandLines == RegionLines(lines[..i], CommandsRegion)
      invariant forall j | 0 <= j < |commandLines| :: IsTrimmed(commandLines[j])
      invariant subcommands == ListingTable(commandLines)
    {
      var line := lines[i];
      RegionStep(lines, i, DescriptionRegion);
      RegionStep(lines, i, CommandsRegion);
      RegionStep(lines, i, FlagsRegion);
      ghost var before := commandLines;
      ghost var entered := !IsSectionHeader(line) && region == CommandsRegion && line != "";
      TrimmedSnoc(before, line, entered);
      commandLines := if entered then before + [line] else before;
      region := if line == AvailableCommandsHeader then CommandsRegion
        else if line == FlagsHeader then FlagsRegion
        else region;
      if line == AvailableCommandsHeader {
        inAvailableCommandsSection := true;
        inFlagsSection := false;
        continue;
      }
      if line == FlagsHeader {
        inFlagsSection := true;
        inAvailableCommandsSection := false;
        continue;
      }
      if !inAvailableCommandsSection && !inFlagsSection {
        if |line| > 0 {
          descriptionLines := descriptionLines + [line];
        }
      }
      if inAvailableCommandsSection && |line| > 0 {
        var parts := ListingEntry(line);
        ListingStep(before, line);
        if parts.Some? {
          subcommands := Put(subcommands, parts.value.0, parts.value.1);
        }
      }
      if inFlagsSection {
        currentFlags := currentFlags + [line];
      }
    }
    assert lines[..|lines|] == lines;
  }

  /** The regions after one more line. */
  lemma RegionStep(ls: seq<string>, i: nat, r: Region)
    requires i < |ls|
    ensures RegionAfter(ls[..i + 1]) ==
      if ls[i] == AvailableCommandsHeader then CommandsRegion
      else if ls[i] == FlagsHeader then FlagsRegion
      else RegionAfter(ls[..i])
    ensures RegionLines(ls[..i + 1], r) ==
      if !IsSectionHeader(ls[i]) && RegionAfter(ls[..i]) == r && (r == FlagsRegion || ls[i] != "")
      then RegionLines(ls[..i], r) + [ls[i]]
      else RegionLines(ls[..i], r)
  {
    assert ls[..i + 1][..i] == ls[..i];
    assert RegionLines(ls[..i], r) + [] == RegionLines(ls[..i], r);
  }

  lemma TrimmedSnoc(cls: seq<string>, line: string, add: bool)
    requires forall i | 0 <= i < |cls| :: IsTrimmed(cls[i])
    requires add ==> IsTrimmed(line)
    ensures var r := if add then cls + [line] else cls;
      forall i | 0 <= i < |r| :: IsTrimmed(r[i])
  {
  }

  /** One more listing line. */
  lemma ListingStep(cls: seq<string>, line: string)
    requires forall i | 0 <= i < |cls| :: IsTrimmed(cls[i])
    requires IsTrimmed(line)
    ensures ListingTable(cls + [line]) ==
      match ListingEntry(line)
      case Some((name, text)) => Put(ListingTable(cls), name, text)
      case None => ListingTable(cls)
  {
    assert (cls + [line])[..|cls|] == cls;
  }

  // ---------------------------------------------------------------------
  // Properties of the regions

  /** The position of the first section header, or the number of lines. */
  function FirstSectionHeader(ls: seq<string>): (n: nat)
    ensures n <= |ls|
    ensures forall i | 0 <= i < n :: !IsSectionHeader(ls[i])
    ensures n < |ls| ==> IsSectionHeader(ls[n])
  {
    if ls == [] then 0
    else if IsSectionHeader(ls[0]) then 0
    else 1 + FirstSectionHeader(ls[1..])
  }

  /** The non-empty lines, in order. */
  function NonBlank(ls: seq<string>): seq<string> {
    if ls == [] then [] else NonBlank(ls[..|ls| - 1]) + Piece(ls[|ls| - 1])
  }

  /** Before any section header, every line is in the description region. */
  lemma {:induction false} NoHeaderYet(ls: seq<string>)
    requires forall i | 0 <= i < |ls| :: !IsSectionHeader(ls[i])
    ensures RegionAfter(ls) == DescriptionRegion
    ensures RegionLines(ls, DescriptionRegion) == NonBlank(ls)
    ensures RegionLines(ls, CommandsRegion) == [] && RegionLines(ls, FlagsRegion) == []
    decreases |ls|
  {
    if ls != [] {
      NoHeaderYet(ls[..|ls| - 1]);
    }
  }

  /** Once a section header has been read, the description region is over. */
  lemma {:induction false} AfterHeader(ls: seq<string>, j: nat)
    requires j < |ls| && IsSectionHeader(ls[j])
    ensures RegionAfter(ls) != DescriptionRegion
    ensures RegionLines(ls, DescriptionRegion) == RegionLines(ls[..j], DescriptionRegion)
    decreases |ls|
  {
    if j < |ls| - 1 {
      var init := ls[..|ls| - 1];
      assert init[j] == ls[j];
      AfterHeader(init, j);
      assert init[..j] == ls[..j];
    } else {
      assert ls[..|ls| - 1] == ls[..j];
    }
  }

  /** The description is the non-empty lines before the first section
      header, in order. */
  lemma DescriptionBeforeFirstHeader(ls: seq<string>)
    ensures RegionLines(ls, DescriptionRegion) == NonBlank(ls[..FirstSectionHeader(ls)])
  {
    var n := FirstSectionHeader(ls);
    NoHeaderYet(ls[..n]);
    if n < |ls| {
      AfterHeader(ls, n);
    } else {
      assert ls[..n] == ls;
    }
  }

  /** With neither header, every non-empty line is description. */
  lemma NeitherHeader(ls: seq<string>)
    requires AvailableCommandsHeader !in ls && FlagsHeader !in ls
    ensures RegionLines(ls, DescriptionRegion) == NonBlank(ls)
    ensures RegionLines(ls, CommandsRegion) == [] && RegionLines(ls, FlagsRegion) == []
  {
    forall i | 0 <= i < |ls| ensures !IsSectionHeader(ls[i]) {
      assert ls[i] in ls;
    }
    NoHeaderYet(ls);
  }

  /** The region named by a header never holds a line without that header. */
  lemma {:induction false} NeverEntered(ls: seq<string>, r: Region, header: string)
    requires r != DescriptionRegion
    requires header == if r == CommandsRegion then AvailableCommandsHeader else FlagsHeader
    requires header !in ls
    ensures RegionAfter(ls) != r && RegionLines(ls, r) == []
    decreases |ls|
  {
    if ls != [] {
      var init := ls[..|ls| - 1];
      assert ls[|ls| - 1] in ls;
      assert forall x | x in init :: x in ls;
      NeverEntered(init, r, header);
    }
  }

  /** The region a section header switches to. */
  function RegionOfHeader(header: string): Region {
    if header == FlagsHeader then FlagsRegion else CommandsRegion
  }

  /** The lines `xs` after a section header `header` that region `r` keeps:
      none unless the header names `r`; all of them for the flags region;
      the non-empty ones for the commands region. */
  function BlockLines(r: Region, header: string, xs: seq<string>): seq<string> {
    if r != RegionOfHeader(header) then []
    else if r == FlagsRegion then xs
    else NonBlank(xs)
  }

  /** Between a section header and the next one, the lines go to the region
      that header names and to no other: every line to the flags region,
      the non-empty ones to the commands region. The header itself goes to
      none. */
  lemma {:induction false} SectionBlock(ls: seq<string>, j: nat, k: nat, r: Region)
    requires j < k <= |ls| && IsSectionHeader(ls[j])
    requires forall i | j < i < k :: !IsSectionHeader(ls[i])
    ensures RegionAfter(ls[..k]) == RegionOfHeader(ls[j])
    ensures RegionLines(ls[..k], r) == RegionLines(ls[..j], r) + BlockLines(r, ls[j], ls[j + 1..k])
    decreases k
  {
    if k == j + 1 {
      BlockStart(ls, j, k, r);
    } else {
      SectionBlock(ls, j, k - 1, r);
      BlockGrows(ls, j, k, r);
    }
  }

  lemma BlockGrows(ls: seq<string>, j: nat, k: nat, r: Region)
    requires j + 1 < k <= |ls| && !IsSectionHeader(ls[k - 1])
    requires RegionAfter(ls[..k - 1]) == RegionOfHeader(ls[j])
    requires RegionLines(ls[..k - 1], r) == RegionLines(ls[..j], r) + BlockLines(r, ls[j], ls[j + 1..k - 1])
    ensures RegionAfter(ls[..k]) == RegionOfHeader(ls[j])
    ensures RegionLines(ls[..k], r) == RegionLines(ls[..j], r) + BlockLines(r, ls[j], ls[j + 1..k])
  {
    SliceSnoc(ls, j + 1, k);
    BlockExtend(ls, k, r, ls[j], RegionLines(ls[..j], r), ls[j + 1..k - 1]);
  }

  /** A section header starts an empty block. */
  lemma BlockStart(ls: seq<string>, j: nat, k: nat, r: Region)
    requires k == j + 1 <= |ls| && IsSectionHeader(ls[j])
    ensures RegionAfter(ls[..k]) == RegionOfHeader(ls[j])
    ensures RegionLines(ls[..k], r) == RegionLines(ls[..j], r) + BlockLines(r, ls[j], ls[j + 1..k])
  {
    RegionStep(ls, j, r);
    assert ls[j + 1..k] == [];
    assert RegionLines(ls[..j], r) + [] == RegionLines(ls[..j], r);
  }

  /** One more line, the `k`-th, inside a section block. */
  lemma BlockExtend(ls: seq<string>, k: nat, r: Region, header: string, front: seq<string>, xs: seq<string>)
    requires 0 < k <= |ls| && !IsSectionHeader(ls[k - 1])
    requires RegionAfter(ls[..k - 1]) == RegionOfHeader(header)
    requires RegionLines(ls[..k - 1], r) == front + BlockLines(r, header, xs)
    ensures RegionAfter(ls[..k]) == RegionOfHeader(header)
    ensures RegionLines(ls[..k], r) == front + BlockLines(r, header, xs + [ls[k - 1]])
  {
    var x := ls[k - 1];
    RegionSnoc(ls, k - 1, r);
    BlockLinesSnoc(r, header, xs, x);
    Regroup(RegionLines(ls[..k], r), RegionLines(ls[..k - 1], r), Adds(r, RegionOfHeader(header), x),
      front, BlockLines(r, header, xs), BlockLines(r, header, xs + [x]));
  }

  lemma RegionSnoc(ls: seq<string>, i: nat, r: Region)
    requires i < |ls|
    ensures RegionLines(ls[..i + 1], r) == RegionLines(ls[..i], r) + Adds(r, RegionAfter(ls[..i]), ls[i])
    ensures !IsSectionHeader(ls[i]) ==> RegionAfter(ls[..i + 1]) == RegionAfter(ls[..i])
  {
    assert ls[..i + 1][..i] == ls[..i];
  }

  lemma Regroup<T>(whole: seq<T>, init: seq<T>, last: seq<T>, front: seq<T>, mid: seq<T>, block: seq<T>)
    requires whole == init + last && init == front + mid && block == mid + last
    ensures whole == front + block
  {
  }

  lemma SliceSnoc(ls: seq<string>, a: nat, b: nat)
    requires a < b <= |ls|
    ensures ls[a..b] == ls[a..b - 1] + [ls[b - 1]]
  {
  }

  lemma BlockLinesSnoc(r: Region, header: string, xs: seq<string>, x: string)
    requires !IsSectionHeader(x)
    ensures BlockLines(r, header, xs + [x]) == BlockLines(r, header, xs) + Adds(r, RegionOfHeader(header), x)
  {
    assert (xs + [x])[..|xs|] == xs;
    assert BlockLines(r, header, xs) + [] == BlockLines(r, header, xs);
  }

  /** The subcommands read from a help text never repeat a name. */
  lemma SubcommandsDistinct(output: Option<string>)
    ensures DistinctKeys(DetailsOf(output).subcommands)
  {
    if output.Some? {
      LinesSubcommandsDistinct(Lines(output.value));
    }
  }

  lemma LinesSubcommandsDistinct(ls: seq<string>)
    requires forall i | 0 <= i < |ls| :: IsTrimmed(ls[i])
    ensures DistinctKeys(DetailsOfLines(ls).subcommands)
  {
    RegionLinesTrimmed(ls, CommandsRegion);
    ListingDistinct(RegionLines(ls, CommandsRegion));
  }

  /** With no "Available Commands:" line there are no subcommands. */
  lemma NoCommandsHeaderNoSubcommands(output: string)
    requires AvailableCommandsHeader !in Lines(output)
    ensures DetailsOf(Some(output)).subcommands == []
  {
    NoCommandsLinesNoSubcommands(Lines(output));
  }

  lemma NoCommandsLinesNoSubcommands(ls: seq<string>)
    requires forall i | 0 <= i < |ls| :: IsTrimmed(ls[i])
    requires AvailableCommandsHeader !in ls
    ensures DetailsOfLines(ls).subcommands == []
  {
    NeverEntered(ls, CommandsRegion, AvailableCommandsHeader);
  }

  /** With no "Flags:" line there are no flags. */
  lemma NoFlagsHeaderNoFlags(output: string)
    requires FlagsHeader !in Lines(output)
    ensures DetailsOf(Some(output)).flags == []
  {
    NoFlagsLinesNoFlags(Lines(output));
  }

  lemma NoFlagsLinesNoFlags(ls: seq<string>)
    requires forall i | 0 <= i < |ls| :: IsTrimmed(ls[i])
    requires FlagsHeader !in ls
    ensures DetailsOfLines(ls).flags == []
  {
    NeverEntered(ls, FlagsRegion, FlagsHeader);
    NoHeaderNoFlags([]);
  }

  /** The description is the non-empty lines before the first section
      header joined with single spaces: the final `trim()` removes nothing. */
  lemma DescriptionText(ls: seq<string>)
    requires forall i | 0 <= i < |ls| :: IsTrimmed(ls[i])
    ensures Trim(Join(" ", RegionLines(ls, DescriptionRegion)))
      == Join(" ", NonBlank(ls[..FirstSectionHeader(ls)]))
  {
    var n := FirstSectionHeader(ls);
    DescriptionBeforeFirstHeader(ls);
    PrefixTrimmed(ls, n);
    NonBlankJoin(ls[..n]);
  }

  lemma PrefixTrimmed(ls: seq<string>, n: nat)
    requires n <= |ls| && forall i | 0 <= i < |ls| :: IsTrimmed(ls[i])
    ensures forall i | 0 <= i < |ls[..n]| :: IsTrimmed(ls[..n][i])
  {
  }

  lemma NonBlankJoin(ls: seq<string>)
    requires forall i | 0 <= i < |ls| :: IsTrimmed(ls[i])
    ensures Trim(Join(" ", NonBlank(ls))) == Join(" ", NonBlank(ls))
  {
    NonBlankTrimmed(ls);
    JoinTrimmed(NonBlank(ls));
  }

  /** The non-empty lines of trimmed lines are trimmed and non-empty. */
  lemma {:induction false} NonBlankTrimmed(ls: seq<string>)
    requires forall i | 0 <= i < |ls| :: IsTrimmed(ls[i])
    ensures forall i | 0 <= i < |NonBlank(ls)| :: IsTrimmed(NonBlank(ls)[i]) && NonBlank(ls)[i] != ""
    decreases |ls|
  {
    if ls != [] {
      NonBlankTrimmed(ls[..|ls| - 1]);
    }
  }

  /** Joining trimmed non-empty pieces with single spaces gives a trimmed
      text. */
  lemma {:induction false} JoinTrimmed(parts: seq<string>)
    requires forall i | 0 <= i < |parts| :: IsTrimmed(parts[i]) && parts[i] != ""
    ensures Trim(Join(" ", parts)) == Join(" ", parts)
  {
    var s := Join(" ", parts);
    JoinEnds(parts);
    assert s == [] + s + [];
    TrimOf([], s, []);
  }

  lemma {:induction false} JoinEnds(parts: seq<string>)
    requires forall i | 0 <= i < |parts| :: IsTrimmed(parts[i]) && parts[i] != ""
    ensures IsTrimmed(Join(" ", parts))
    ensures parts != [] ==> Join(" ", parts) != [] && Join(" ", parts)[0] == parts[0][0]
    ensures parts != [] ==> |parts[0]| <= |Join(" ", parts)| && Join(" ", parts)[..|parts[0]|] == parts[0]
    decreases |parts|
  {
    if |parts| > 1 {
      var rest := Join(" ", parts[1..]);
      JoinEnds(parts[1..]);
      var s := parts[0] + " " + rest;
      assert s[0] == parts[0][0];
      assert s[..|parts[0]|] == parts[0];
      assert s[|s| - 1] == rest[|rest| - 1];
    }
  }
}

=== FILE: command_tree.dfy ===
/** `buildCommandTree`: the tree of commands, each node holding the details
    its own help text gives, with one child per subcommand it lists. The
    source recursion has no bound; here every call carries a depth budget
    `fuel`, and a build that would go deeper than the budget allows yields
    None. */
module CommandTree {
  import opened Wrappers
  import opened Text
  import opened OrderedDict
  import opened FlagParser
  import opened CommandDetails

  /** A node of the tree: `{description, flags, subcommands}`. */
  datatype Node = Node(description: string, flags: Dict<FlagEntry>, subcommands: Dict<Node>)

  /** The path of a subcommand: the parent's command, a space, the name. */
  function ChildCommand(command: string, name: string): (c: string)
    ensures |c| == |command| + 1 + |name|
    ensures c[..|command|] == command && c[|command|] == ' ' && c[|command| + 1..] == name
  {
    command + " " + name
  }

  /** A child as its parent stores it: when its own description is empty
      (falsy), it takes the text the parent's listing gave for it. */
  function Backfill(child: Node, listed: string): (r: Node)
    ensures r.flags == child.flags && r.subcommands == child.subcommands
    ensures child.description != "" ==> r == child
    ensures child.description == "" ==> r.description == listed
    ensures r.description == "" ==> listed == ""
  {
    if child.description == "" then child.(description := listed) else child
  }

  /** The details the tree reads for each command: `fetchCommandDetails`
      over the help oracle. */
  function Fetcher(help: string -> Option<string>): string -> Details {
    command => CommandDetailsOf(help, command)
  }

  /** The tree of `command` within a budget of `fuel` levels, for any way
      `fetch` of reading a command's details. */
  function BuildTree(fetch: string -> Details, command: string, fuel: nat): Option<Node>
    decreases fuel, 0
  {
    if fuel == 0 then None
    else
      var details := fetch(command);
      match BuildChildren(fetch, command, details.subcommands, fuel - 1)
      case None => None
      case Some(children) => Some(Node(details.description, details.flags, children))
  }

  /** The children of `command` for the listing `entries`, in order. */
  function BuildChildren(fetch: string -> Details, command: string, entries: Dict<string>, fuel: nat)
    : Option<Dict<Node>>
    decreases fuel, 1, |entries|
  {
    if entries == [] then Some([])
    else
      var (name, listed) := entries[|entries| - 1];
      match BuildChildren(fetch, command, entries[..|entries| - 1], fuel)
      case None => None
      case Some(children) =>
        match BuildTree(fetch, ChildCommand(command, name), fuel)
        case None => None
        case Some(child) => Some(Put(children, name, Backfill(child, listed)))
  }

  // ---------------------------------------------------------------------
  // The recursion

  /** `buildCommandTree(command)` over the help oracle, within `fuel` levels:
      the node of `command`, its children filled in by `BuildSubcommands`. */
  method BuildCommandTree(help: string -> Option<string>, command: string, fuel: nat) returns (tree: Option<Node>)
    ensures tree == BuildTree(Fetcher(help), command, fuel)
    decreases fuel, 1
  {
    if fuel == 0 {
      return None;
    }
    var childFuel := fuel - 1;
    var details := FetchCommandDetails(help, command);
    var children := BuildSubcommands(help, command, details.subcommands, childFuel);
    FetcherApplies(help, command, details);
    NodeOf(Fetcher(help), command, fuel, childFuel, details, children);
    if children.None? {
      return None;
    }
    tree := Some(Node(details.description, details.flags, children.value));
  }

  /** The loop of `buildCommandTree` over the listed subcommands: each child
      is built from its path, stored, and given the listing text when its own
      description is empty. */
  method BuildSubcommands(help: string -> Option<string>, command: string, entries: Dict<string>, childFuel: nat)
    returns (children: Option<Dict<Node>>)
    ensures children == BuildChildren(Fetcher(help), command, entries, childFuel)
    decreases childFuel + 1, 0
  {
    ghost var fetch := Fetcher(help);
    var subcommands: Dict<Node> := [];
    for i := 0 to |entries|
      invariant BuildChildren(fetch, command, entries[..i], childFuel) == Some(subcommands)
    {
      var (subcommand, listed) := entries[i];
      var fullCommand := ChildCommand(command, subcommand);
      var child := BuildCommandTree(help, fullCommand, childFuel);
      if child.None? {
        ChildFailsAll(fetch, command, entries, i, childFuel, subcommands);
        return None;
      }
      ghost var before := subcommands;
      subcommands := Put(subcommands, subcommand, child.value);
      PutGetKeys(before, subcommand, child.value);
      var stored := Get(subcommands, subcommand).value;
      if stored.description == "" {
        subcommands := Put(subcommands, subcommand, stored.(description := listed));
      }
      StoreChild(before, subcommand, child.value, listed, stored);
      ChildAdded(fetch, command, entries, i, childFuel, before, child.value);
    }
    assert entries[..|entries|] == entries;
    children := Some(subcommands);
  }

  /** What `Fetcher` reads for a command is what `fetchCommandDetails` returns. */
  lemma FetcherApplies(help: string -> Option<string>, command: string, details: Details)
    requires details == CommandDetailsOf(help, command)
    ensures Fetcher(help)(command) == details
  {
  }

  /** A node is its details and its children. */
  lemma NodeOf(fetch: string -> Details, command: string, fuel: nat, childFuel: nat, details: Details,
               children: Option<Dict<Node>>)
    requires fuel > 0 && childFuel == fuel - 1 && details == fetch(command)
    requires children == BuildChildren(fetch, command, details.subcommands, childFuel)
    ensures BuildTree(fetch, command, fuel) ==
      if children.None? then None else Some(Node(details.description, details.flags, children.value))
  {
  }

  /** Storing a child and then patching its description in place is storing
      the backfilled child. */
  lemma StoreChild(before: Dict<Node>, name: string, child: Node, listed: string, stored: Node)
    requires stored == child
    ensures (if stored.description == "" then Put(Put(before, name, child), name, stored.(description := listed))
             else Put(before, name, child)) == Put(before, name, Backfill(child, listed))
  {
    if stored.description == "" {
      PutPut(before, name, child, stored.(description := listed));
    }
  }

  /** The children after one more listing entry whose tree is built. */
  lemma ChildAdded(fetch: string -> Details, command: string, entries: Dict<string>, i: nat, fuel: nat,
                   children: Dict<Node>, child: Node)
    requires i < |entries|
    requires BuildChildren(fetch, command, entries[..i], fuel) == Some(children)
    requires BuildTree(fetch, ChildCommand(command, entries[i].0), fuel) == Some(child)
    ensures BuildChildren(fetch, command, entries[..i + 1], fuel) == Some(Put(children, entries[i].0, Backfill(child, entries[i].1)))
  {
    assert entries[..i + 1][..i] == entries[..i];
  }

  /** A child that cannot be built within the budget fails the whole listing. */
  lemma {:induction false} ChildFailsAll(fetch: string -> Details, command: string, entries: Dict<string>, i: nat,
                                         fuel: nat, children: Dict<Node>)
    requires i < |entries|
    requires BuildChildren(fetch, command, entries[..i], fuel) == Some(children)
    requires BuildTree(fetch, ChildCommand(command, entries[i].0), fuel).None?
    ensures BuildChildren(fetch, command, entries, fuel).None?
    decreases |entries|
  {
    var init := entries[..|entries| - 1];
    if i == |entries| - 1 {
      assert init == entries[..i];
    } else {
      assert init[..i] == entries[..i] && init[i] == entries[i];
      ChildFailsAll(fetch, command, init, i, fuel, children);
    }
  }

  // ---------------------------------------------------------------------
  // Properties of the tree

  /** `stored` is how a parent at `command` keeps the listing entry `entry`:
      under the listed name, the tree of the path `command name` built
      within `fuel`, given the listing text if its own description is empty. */
  predicate ChildAt(fetch: string -> Details, command: string, entry: (string, string), fuel: nat, stored: (string, Node)) {
    var tree := BuildTree(fetch, ChildCommand(command, entry.0), fuel);
    stored.0 == entry.0 && tree.Some? && stored.1 == Backfill(tree.value, entry.1)
  }

  /** The children follow the listing: one per listed subcommand, in listing
      order, each built from its own path. */
  lemma {:induction false} ChildrenFollowListing(fetch: string -> Details, command: string, entries: Dict<string>,
                                                 fuel: nat, children: Dict<Node>)
    requires DistinctKeys(entries)
    requires BuildChildren(fetch, command, entries, fuel) == Some(children)
    ensures |children| == |entries|
    ensures forall i | 0 <= i < |entries| :: ChildAt(fetch, command, entries[i], fuel, children[i])
    decreases |entries|
  {
    if entries != [] {
      var last := entries[|entries| - 1];
      var init := entries[..|entries| - 1];
      assert entries == init + [last];
      DistinctSnoc(init, last);
      var front := BuildChildren(fetch, command, init, fuel).value;
      ChildrenFollowListing(fetch, command, init, fuel, front);
      var child := BuildTree(fetch, ChildCommand(command, last.0), fuel).value;
      KeysAgree(front, init);
      PutNew(front, last.0, Backfill(child, last.1));
      assert children == front + [(last.0, Backfill(child, last.1))];
      forall i | 0 <= i < |entries| ensures ChildAt(fetch, command, entries[i], fuel, children[i]) {
        if i < |init| {
          assert entries[i] == init[i] && children[i] == front[i];
        }
      }
    }
  }

  /** The children are built exactly when every listed subcommand's tree is. */
  lemma {:induction false} ChildrenBuiltIff(fetch: string -> Details, command: string, entries: Dict<string>, fuel: nat)
    ensures BuildChildren(fetch, command, entries, fuel).Some? <==>
      forall i | 0 <= i < |entries| :: BuildTree(fetch, ChildCommand(command, entries[i].0), fuel).Some?
    decreases |entries|
  {
    if entries != [] {
      var init := entries[..|entries| - 1];
      ChildrenBuiltIff(fetch, command, init, fuel);
      assert forall i | 0 <= i < |init| :: init[i] == entries[i];
    }
  }

  /** Each node carries its own description and flags, and its children are
      the listed subcommands, under the same names and in listing order,
      each built from its path one level down. */
  lemma TreeFollowsDetails(fetch: string -> Details, command: string, fuel: nat, node: Node)
    requires BuildTree(fetch, command, fuel) == Some(node)
    requires DistinctKeys(fetch(command).subcommands)
    ensures fuel > 0
    ensures node.description == fetch(command).description && node.flags == fetch(command).flags
    ensures Keys(node.subcommands) == Keys(fetch(command).subcommands)
    ensures forall i | 0 <= i < |node.subcommands| ::
      ChildAt(fetch, command, fetch(command).subcommands[i], fuel - 1, node.subcommands[i])
  {
    var childFuel := fuel - 1;
    var entries := fetch(command).subcommands;
    ChildrenFollowListing(fetch, command, entries, childFuel, node.subcommands);
    KeysAgree(node.subcommands, entries);
  }

  /** A tree is built exactly when the budget is not spent and the tree of
      every listed subcommand is built one level down. */
  lemma TreeBuiltIff(fetch: string -> Details, command: string, fuel: nat)
    ensures BuildTree(fetch, command, fuel).Some? <==>
      fuel > 0 && forall i | 0 <= i < |fetch(command).subcommands| ::
        BuildTree(fetch, ChildCommand(command, fetch(command).subcommands[i].0), fuel - 1).Some?
  {
    if fuel > 0 {
      var childFuel := fuel - 1;
      ChildrenBuiltIff(fetch, command, fetch(command).subcommands, childFuel);
    }
  }

  /** A stored child has the flags of its own help text, and its own
      description unless that is empty, in which case the listing text. */
  lemma StoredChild(fetch: string -> Details, command: string, entry: (string, string), fuel: nat, stored: (string, Node))
    requires ChildAt(fetch, command, entry, fuel, stored)
    ensures var own := fetch(ChildCommand(command, entry.0));
      stored.1.flags == own.flags &&
      stored.1.description == if own.description == "" then entry.1 else own.description
  {
    var path := ChildCommand(command, entry.0);
    var childFuel := fuel - 1;
    var children := BuildChildren(fetch, path, fetch(path).subcommands, childFuel);
    NodeOf(fetch, path, fuel, childFuel, fetch(path), children);
  }

  /** A budget that builds a tree builds the same tree with one more level. */
  lemma {:induction false} TreeMoreFuel(fetch: string -> Details, command: string, fuel: nat, more: nat, node: Node)
    requires more == fuel + 1
    requires BuildTree(fetch, command, fuel) == Some(node)
    ensures BuildTree(fetch, command, more) == Some(node)
    decreases fuel, 0
  {
    var details := fetch(command);
    var childFuel := fuel - 1;
    var children := BuildChildren(fetch, command, details.subcommands, childFuel);
    NodeOf(fetch, command, fuel, childFuel, details, children);
    ChildrenMoreFuel(fetch, command, details.subcommands, childFuel, fuel, children.value);
    NodeOf(fetch, command, more, fuel, details, children);
  }

  lemma {:induction false} ChildrenMoreFuel(fetch: string -> Details, command: string, entries: Dict<string>,
                                            fuel: nat, more: nat, children: Dict<Node>)
    requires more == fuel + 1
    requires BuildChildren(fetch, command, entries, fuel) == Some(children)
    ensures BuildChildren(fetch, command, entries, more) == Some(children)
    decreases fuel, 1, |entries|
  {
    if entries != [] {
      var (name, listed) := entries[|entries| - 1];
      var init := entries[..|entries| - 1];
      var front := BuildChildren(fetch, command, init, fuel).value;
      ChildrenMoreFuel(fetch, command, init, fuel, more, front);
      var path := ChildCommand(command, name);
      var child := BuildTree(fetch, path, fuel).value;
      TreeMoreFuel(fetch, path, fuel, more, child);
    }
  }

  /** Any larger budget builds the same tree: once the budget covers the
      depth of the tree, the fuel bound no longer shapes the result. */
  lemma {:induction false} TreeFuelMonotone(fetch: string -> Details, command: string, fuel: nat, more: nat, node: Node)
    requires fuel <= more
    requires BuildTree(fetch, command, fuel) == Some(node)
    ensures BuildTree(fetch, command, more) == Some(node)
    decreases more - fuel
  {
    if fuel < more {
      TreeMoreFuel(fetch, command, fuel, fuel + 1, node);
      TreeFuelMonotone(fetch, command, fuel + 1, more, node);
    }
  }

  // ---------------------------------------------------------------------
  // The tree over the help oracle

  /** Over the help oracle, each node carries the details its own help text
      gives, and its children are the subcommands that text lists, one per
      name, in listing order. */
  lemma HelpTreeFollowsHelp(help: string -> Option<string>, command: string, fuel: nat, node: Node)
    requires BuildTree(Fetcher(help), command, fuel) == Some(node)
    ensures node.description == CommandDetailsOf(help, command).description
    ensures node.flags == CommandDetailsOf(help, command).flags
    ensures Keys(node.subcommands) == Keys(CommandDetailsOf(help, command).subcommands)
    ensures forall i | 0 <= i < |node.subcommands| ::
      ChildAt(Fetcher(help), command, CommandDetailsOf(help, command).subcommands[i], fuel - 1, node.subcommands[i])
  {
    var details := CommandDetailsOf(help, command);
    SubcommandsDistinct(help(command + " -h"));
    FetcherApplies(help, command, details);
    TreeFollowsDetails(Fetcher(help), command, fuel, node);
  }

  /** A command whose help fails is kept as a node with an empty
      description, no flags and no subcommands. */
  lemma FailedHelpLeaf(help: string -> Option<string>, command: string, fuel: nat)
    requires fuel > 0 && help(command + " -h").None?
    ensures BuildTree(Fetcher(help), command, fuel) == Some(Node("", [], []))
  {
    var childFuel := fuel - 1;
    FetcherApplies(help, command, NoDetails);
    NodeOf(Fetcher(help), command, fuel, childFuel, NoDetails, Some([]));
  }

  /** A subcommand whose help fails is still stored, with the description
      its parent's listing gave, no flags and no subcommands. */
  lemma FailedChildKeepsListing(help: string -> Option<string>, command: string, entry: (string, string), fuel: nat)
    requires fuel > 0 && help(ChildCommand(command, entry.0) + " -h").None?
    ensures ChildAt(Fetcher(help), command, entry, fuel, (entry.0, Node(entry.1, [], [])))
  {
    FailedHelpLeaf(help, ChildCommand(command, entry.0), fuel);
  }

  /** A help text without an "Available Commands:" line gives a leaf. */
  lemma NoListingLeaf(help: string -> Option<string>, command: string, fuel: nat, output: string)
    requires fuel > 0 && help(command + " -h") == Some(output)
    requires AvailableCommandsHeader !in Lines(output)
    ensures BuildTree(Fetcher(help), command, fuel) ==
      Some(Node(DetailsOf(Some(output)).description, DetailsOf(Some(output)).flags, []))
  {
    var details := DetailsOf(Some(output));
    var childFuel := fuel - 1;
    NoCommandsHeaderNoSubcommands(output);
    FetcherApplies(help, command, details);
    NodeOf(Fetcher(help), command, fuel, childFuel, details, Some([]));
  }
}

=== FILE: flag_header.dfy ===
/** The flag-header recogniser of `parseFlags`: the regular expression
      ^\s*(-[\w-]+,?\s*)?(--[\w-]+)(\s+[\w<>]+)?(\s+.*)?$
    written as an explicit scanner. The languages of its four groups are
    stated declaratively (`ShortGroup`, `LongGroup`, `TypeGroup`,
    `RestGroup`), `Matches` says when a split of a line into the groups is a
    match, and `Prefers` is the order in which a backtracking engine tries
    the alternatives: the longest short-flag group first, then a present
    type group. The scanner returns the preferred match. */
module FlagHeader {
  import opened Wrappers
  import opened Text

  /** `[\w-]` */
  predicate IsWordOrDash(c: char) {
    IsWordChar(c) || c == '-'
  }

  /** `[\w<>]` */
  predicate IsTypeChar(c: char) {
    IsWordChar(c) || c == '<' || c == '>'
  }

  /** Groups 3 and 4, the part after the long flag (None for a group that
      did not take part). */
  datatype Tail = Tail(typ: Option<string>, rest: Option<string>)

  /** The captures of a match: the leading whitespace, group 1, group 2 and
      groups 3 and 4. */
  datatype HeaderMatch = HeaderMatch(lead: string, short: Option<string>, long: string, tail: Tail)

  /** The text a group contributes to the line. */
  function Opt(g: Option<string>): string {
    if g.Some? then g.value else ""
  }

  /** The text groups 3 and 4 contribute to the line. */
  function TailText(t: Tail): string {
    Opt(t.typ) + Opt(t.rest)
  }

  /** The line a match was taken from. */
  function MatchText(m: HeaderMatch): string {
    m.lead + (Opt(m.short) + (m.long + TailText(m.tail)))
  }

  // ---------------------------------------------------------------------
  // The languages of the groups

  /** `,?\s*` */
  predicate CommaSpaces(x: string) {
    All(x, IsSpace) || (|x| > 0 && x[0] == ',' && All(x[1..], IsSpace))
  }

  /** `-[\w-]+,?\s*` with the `[\w-]+` part ending at `i`. */
  predicate ShortAt(g: string, i: int) {
    2 <= i <= |g| && g[0] == '-' && All(g[1..i], IsWordOrDash) && CommaSpaces(g[i..])
  }

  /** Group 1: `-[\w-]+,?\s*` */
  ghost predicate ShortGroup(g: string) {
    exists i :: ShortAt(g, i)
  }

  /** Group 2: `--[\w-]+` */
  predicate LongGroup(g: string) {
    |g| >= 3 && g[0] == '-' && g[1] == '-' && All(g[2..], IsWordOrDash)
  }

  /** `\s+[\w<>]+` with the whitespace ending at `i`. */
  predicate TypeAt(g: string, i: int) {
    1 <= i < |g| && All(g[..i], IsSpace) && All(g[i..], IsTypeChar)
  }

  /** Group 3: `\s+[\w<>]+` */
  ghost predicate TypeGroup(g: string) {
    exists i :: TypeAt(g, i)
  }

  /** `\s+.*` with the whitespace ending at `i`. */
  predicate RestAt(g: string, i: int) {
    1 <= i <= |g| && All(g[..i], IsSpace) && All(g[i..], IsNotLineTerminator)
  }

  /** Group 4: `\s+.*` up to the end of the input. */
  ghost predicate RestGroup(g: string) {
    exists i :: RestAt(g, i)
  }

  /** Groups 3 and 4 are each in their language or absent. */
  ghost predicate TailGroups(t: Tail) {
    (t.typ.Some? ==> TypeGroup(t.typ.value))
    && (t.rest.Some? ==> RestGroup(t.rest.value))
  }

  /** `r` is matched by `(\s+[\w<>]+)?(\s+.*)?$` with the captures `t`. */
  ghost predicate TailMatches(r: string, t: Tail) {
    r == TailText(t) && TailGroups(t)
  }

  /** `line` is matched by the whole expression with the captures `m`. */
  ghost predicate Matches(line: string, m: HeaderMatch) {
    line == MatchText(m)
    && All(m.lead, IsSpace)
    && (m.short.Some? ==> ShortGroup(m.short.value))
    && LongGroup(m.long)
    && TailGroups(m.tail)
  }

  /** A backtracking engine reaches `m` no later than `n`: it tries group 1
      before skipping it and longer group-1 texts before shorter ones, and
      then tries group 3 before skipping it. */
  predicate Prefers(m: HeaderMatch, n: HeaderMatch) {
    |Opt(m.short)| > |Opt(n.short)|
    || (|Opt(m.short)| == |Opt(n.short)| && (n.tail.typ.Some? ==> m.tail.typ.Some?))
  }

  // ---------------------------------------------------------------------
  // Groups 3 and 4

  /** Computable test for group 4: the text starts with whitespace and no
      line terminator follows its first whitespace run. */
  predicate IsRestText(x: string) {
    |x| > 0 && IsSpace(x[0]) && All(x[RunEnd(x, 0, IsSpace)..], IsNotLineTerminator)
  }

  lemma RestTextIff(x: string)
    ensures IsRestText(x) <==> RestGroup(x)
  {
    if IsRestText(x) {
      var w := RunEnd(x, 0, IsSpace);
      AllPrefix(x, w, IsSpace);
      assert RestAt(x, w);
    }
    if RestGroup(x) {
      var i :| RestAt(x, i);
      AllPrefix(x, i, IsSpace);
      var w := RunEnd(x, 0, IsSpace);
      RunEndCovers(x, 0, i, IsSpace);
      AllSuffix(x, i, IsNotLineTerminator);
      AllSuffix(x, w, IsNotLineTerminator);
    }
  }

  /** The scanner for `(\s+[\w<>]+)?(\s+.*)?$` on the text after the long flag. */
  function MatchTail(r: string): Option<Tail> {
    if r == [] then Some(Tail(None, None))
    else if !IsSpace(r[0]) then None
    else
      var w := RunEnd(r, 0, IsSpace);
      var e := RunEnd(r, w, IsTypeChar);
      if w < e && (e == |r| || IsRestText(r[e..])) then
        Some(Tail(Some(r[..e]), if e == |r| then None else Some(r[e..])))
      else if IsRestText(r) then Some(Tail(None, Some(r)))
      else None
  }

  /** The character classes of the expression are disjoint from `\s`. */
  lemma SpaceIsInNoOtherClass(c: char)
    ensures IsSpace(c) ==> !IsTypeChar(c) && !IsWordOrDash(c) && c != ','
  {
  }

  /** What the tail scanner returns is a match. */
  lemma MatchTailSound(r: string)
    requires MatchTail(r).Some?
    ensures TailMatches(r, MatchTail(r).value)
  {
    if r != [] {
      var w := RunEnd(r, 0, IsSpace);
      var e := RunEnd(r, w, IsTypeChar);
      if w < e && (e == |r| || IsRestText(r[e..])) {
        var g := r[..e];
        AllPrefix(r, w, IsSpace);
        AllPrefix(g, w, IsSpace);
        AllSuffix(g, w, IsTypeChar);
        assert TypeAt(g, w);
        if e < |r| {
          RestTextIff(r[e..]);
          assert r == g + r[e..];
        }
      } else {
        RestTextIff(r);
      }
    }
  }

  /** The tail scanner finds a match whenever there is one, and takes group 3
      whenever some match has it. */
  lemma MatchTailComplete(r: string, u: Tail)
    requires TailMatches(r, u)
    ensures MatchTail(r).Some?
    ensures u.typ.Some? ==> MatchTail(r).value.typ.Some?
  {
    if u.typ.Some? {
      var g := u.typ.value;
      var i :| TypeAt(g, i);
      assert r == g + Opt(u.rest);
      AllPrefix(g, i, IsSpace);
      AllSuffix(g, i, IsTypeChar);
      SpaceIsInNoOtherClass(g[i]);
      assert forall k | 0 <= k < i :: r[k] == g[k];
      RunEndUnique(r, 0, i, IsSpace);
      var w := RunEnd(r, 0, IsSpace);
      assert forall k | i <= k < |g| :: r[k] == g[k];
      if u.rest.Some? {
        var h := u.rest.value;
        var j :| RestAt(h, j);
        assert r[|g|..] == h;
        AllPrefix(h, j, IsSpace);
        assert IsSpace(r[|g|]);
        SpaceIsInNoOtherClass(r[|g|]);
        RunEndUnique(r, w, |g|, IsTypeChar);
        RestTextIff(h);
      } else {
        assert r == g;
        RunEndUnique(r, w, |g|, IsTypeChar);
      }
    } else if u.rest.Some? {
      var h := u.rest.value;
      assert r == h;
      var j :| RestAt(h, j);
      AllPrefix(h, j, IsSpace);
      RestTextIff(h);
    }
  }

  // ---------------------------------------------------------------------
  // Group 2 and what follows it

  /** The scanner for `(--[\w-]+)(\s+[\w<>]+)?(\s+.*)?$` at index `j` of `s`. */
  function MatchLongAt(s: string, j: nat): Option<(string, Tail)>
    requires j <= |s|
  {
    if j + 2 < |s| && s[j] == '-' && s[j + 1] == '-' && IsWordOrDash(s[j + 2]) then
      var e := RunEnd(s, j + 2, IsWordOrDash);
      match MatchTail(s[e..])
      case Some(t) => Some((s[j..e], t))
      case None => None
    else None
  }

  /** What the scanner returns at `j` is a match of group 2 and the tail. */
  lemma MatchLongAtSound(s: string, j: nat)
    requires j <= |s| && MatchLongAt(s, j).Some?
    ensures var m := MatchLongAt(s, j).value;
      s[j..] == m.0 + TailText(m.1) && LongGroup(m.0) && TailGroups(m.1)
  {
    var e := RunEnd(s, j + 2, IsWordOrDash);
    var long := s[j..e];
    var t := MatchTail(s[e..]).value;
    assert MatchLongAt(s, j) == Some((long, t));
    LongRun(s, j, e);
    MatchTailSound(s[e..]);
    assert s[j..] == long + s[e..];
  }

  lemma LongRun(s: string, j: nat, e: nat)
    requires j + 2 < |s| && s[j] == '-' && s[j + 1] == '-' && IsWordOrDash(s[j + 2])
    requires e == RunEnd(s, j + 2, IsWordOrDash)
    ensures LongGroup(s[j..e])
  {
    assert s[j..e][2..] == s[j..e][2..e - j];
    AllSubSlice(s, j, e, 2, e - j, IsWordOrDash);
  }

  /** Whenever group 2 and a tail match at `j`, the scanner finds the same
      group 2, and takes group 3 whenever that match has it. */
  lemma MatchLongAtComplete(s: string, j: nat, long: string, u: Tail)
    requires j <= |s|
    requires s[j..] == long + TailText(u)
    requires LongGroup(long) && TailGroups(u)
    ensures MatchLongAt(s, j).Some? && MatchLongAt(s, j).value.0 == long
    ensures u.typ.Some? ==> MatchLongAt(s, j).value.1.typ.Some?
  {
    var r := TailText(u);
    var e := j + |long|;
    assert s[j..e] == long && s[e..] == r;
    AllSuffix(long, 2, IsWordOrDash);
    assert forall k | j + 2 <= k < e :: s[k] == long[k - j];
    if e < |s| {
      assert s[e] == r[0];
      TailStartsWithSpace(r, u);
      SpaceIsInNoOtherClass(s[e]);
    }
    RunEndUnique(s, j + 2, e, IsWordOrDash);
    MatchTailComplete(r, u);
  }

  /** A non-empty tail starts with whitespace. */
  lemma TailStartsWithSpace(r: string, u: Tail)
    requires TailMatches(r, u) && r != []
    ensures IsSpace(r[0])
  {
    if u.typ.Some? {
      var i :| TypeAt(u.typ.value, i);
      AllPrefix(u.typ.value, i, IsSpace);
    } else {
      var i :| RestAt(u.rest.value, i);
      AllPrefix(u.rest.value, i, IsSpace);
    }
  }

  // ---------------------------------------------------------------------
  // Group 1 and the whole line

  /** End of group 1 in `s` when its `[\w-]+` part is `s[1..1 + k]`: the
      comma is taken when it is there, then all the whitespace after it. */
  function ShortEnd(s: string, k: nat): (e: nat)
    requires 1 + k <= |s|
    ensures 1 + k <= e <= |s|
  {
    var i := 1 + k;
    var c := if i < |s| && s[i] == ',' then i + 1 else i;
    RunEnd(s, c, IsSpace)
  }

  /** The backtracking over group 1: the `[\w-]+` lengths `k`, `k - 1`, ...,
      `1` are tried in turn, and the first after which group 2 and the tail
      match is taken. */
  function TryShort(s: string, k: nat): (r: Option<nat>)
    requires 1 + k <= |s|
    ensures r.Some? ==> 1 <= r.value <= k && MatchLongAt(s, ShortEnd(s, r.value)).Some?
    ensures forall k0 | 1 <= k0 <= k && MatchLongAt(s, ShortEnd(s, k0)).Some? :: r.Some? && k0 <= r.value
  {
    if k == 0 then None
    else if MatchLongAt(s, ShortEnd(s, k)).Some? then Some(k)
    else TryShort(s, k - 1)
  }

  /** The captures of groups 1 to 4 on `s`, the line after its leading
      whitespace, as the regular-expression engine finds them. */
  function MatchFlags(s: string): Option<(Option<string>, string, Tail)> {
    if s == [] || s[0] != '-' then None
    else
      match TryShort(s, RunEnd(s, 1, IsWordOrDash) - 1)
      case Some(k) =>
        var e := ShortEnd(s, k);
        var m := MatchLongAt(s, e).value;
        Some((Some(s[..e]), m.0, m.1))
      case None =>
        match MatchLongAt(s, 0)
        case Some(m) => Some((None, m.0, m.1))
        case None => None
  }

  /** `line.match(/^\s*(-[\w-]+,?\s*)?(--[\w-]+)(\s+[\w<>]+)?(\s+.*)?$/)`:
      the captures of the match the regular-expression engine returns, or
      None when the line is not a flag header. */
  function MatchHeader(line: string): Option<HeaderMatch> {
    var p := RunEnd(line, 0, IsSpace);
    match MatchFlags(line[p..])
    case Some(m) => Some(HeaderMatch(line[..p], m.0, m.1, m.2))
    case None => None
  }

  /** The text up to `ShortEnd` is in the language of group 1. */
  lemma ShortEndGroup(s: string, k: nat)
    requires s != [] && s[0] == '-'
    requires 1 <= k && 1 + k <= RunEnd(s, 1, IsWordOrDash)
    ensures ShortAt(s[..ShortEnd(s, k)], 1 + k)
  {
    var i := 1 + k;
    var e := ShortEnd(s, k);
    var g := s[..e];
    AllSubSlice(s, 0, e, 1, i, IsWordOrDash);
    assert g[1..i] == s[0..e][1..i];
    assert g[i..] == s[i..e];
    if i < |s| && s[i] == ',' {
      assert g[i..][1..] == s[i + 1..e];
      AllSlice(s, i + 1, e, IsSpace);
    } else {
      AllSlice(s, i, e, IsSpace);
    }
  }

  /** Inside the `[\w-]` run no comma and no whitespace can end group 1. */
  lemma ShortEndInside(s: string, k: nat)
    requires 1 <= |s| && 1 + k < RunEnd(s, 1, IsWordOrDash)
    ensures ShortEnd(s, k) == 1 + k
  {
    SpaceIsInNoOtherClass(s[1 + k]);
  }

  /** A group 1 followed by group 2 ends where `ShortEnd` says. */
  lemma ShortEndOfGroup(s: string, g: string, i: nat)
    requires |g| < |s| && s[..|g|] == g && ShortAt(g, i)
    requires s[|g|] == '-'
    ensures ShortEnd(s, i - 1) == |g|
  {
    var x := g[i..];
    forall k | i <= k < |g| ensures s[k] == x[k - i] {
      assert s[k] == s[..|g|][k];
    }
    if i < |g| {
      assert s[i] == s[..|g|][i];
    }
    if All(x, IsSpace) {
      RunEndUnique(s, i, |g|, IsSpace);
    } else {
      RunEndUnique(s, i + 1, |g|, IsSpace);
    }
  }

  /** `MatchFlags` when some group 1 works. */
  lemma MatchFlagsWithShort(s: string)
    requires s != [] && s[0] == '-'
    requires TryShort(s, RunEnd(s, 1, IsWordOrDash) - 1).Some?
    ensures var e := ShortEnd(s, TryShort(s, RunEnd(s, 1, IsWordOrDash) - 1).value);
      MatchFlags(s) == Some((Some(s[..e]), MatchLongAt(s, e).value.0, MatchLongAt(s, e).value.1))
  {
  }

  /** What `MatchFlags` returns is a match of groups 1 to 4. */
  lemma MatchFlagsSound(s: string)
    requires MatchFlags(s).Some?
    ensures var m := MatchFlags(s).value;
      s == Opt(m.0) + (m.1 + TailText(m.2))
      && (m.0.Some? ==> ShortGroup(m.0.value)) && LongGroup(m.1) && TailGroups(m.2)
  {
    match TryShort(s, RunEnd(s, 1, IsWordOrDash) - 1)
    case Some(k) =>
      var e := ShortEnd(s, k);
      MatchLongAtSound(s, e);
      ShortEndGroup(s, k);
      assert s == s[..e] + s[e..];
    case None =>
      MatchLongAtSound(s, 0);
  }

  /** Soundness: what the scanner returns is a match of the expression. */
  lemma MatchHeaderSound(line: string)
    requires MatchHeader(line).Some?
    ensures Matches(line, MatchHeader(line).value)
  {
    var p := RunEnd(line, 0, IsSpace);
    AllPrefix(line, p, IsSpace);
    MatchFlagsSound(line[p..]);
    assert line == line[..p] + line[p..];
  }

  /** Whenever groups 1 to 4 match `s`, `MatchFlags` returns a match, the one
      a backtracking engine reaches first. */
  lemma MatchFlagsComplete(s: string, n: HeaderMatch)
    requires s == Opt(n.short) + (n.long + TailText(n.tail))
    requires (n.short.Some? ==> ShortGroup(n.short.value)) && LongGroup(n.long) && TailGroups(n.tail)
    ensures MatchFlags(s).Some?
    ensures var m := MatchFlags(s).value; Prefers(HeaderMatch(n.lead, m.0, m.1, m.2), n)
  {
    if n.short.None? {
      assert s == n.long + TailText(n.tail);
      MatchLongAtComplete(s, 0, n.long, n.tail);
    } else {
      var i :| ShortAt(n.short.value, i);
      assert s[..|n.short.value|] == n.short.value;
      ShortFirst(s, n.short.value, i, n.long, n.tail);
    }
  }

  /** The case of `MatchFlagsComplete` where group 1 takes part: the scanner
      reaches this group 1 or a longer one. */
  lemma ShortFirst(s: string, g: string, i: nat, long: string, tail: Tail)
    requires |g| <= |s| && s[..|g|] == g && s[|g|..] == long + TailText(tail)
    requires ShortAt(g, i) && LongGroup(long) && TailGroups(tail)
    ensures MatchFlags(s).Some? && MatchFlags(s).value.0.Some?
    ensures |g| < |MatchFlags(s).value.0.value|
      || (|g| == |MatchFlags(s).value.0.value| && (tail.typ.Some? ==> MatchFlags(s).value.2.typ.Some?))
  {
    ShortWorks(s, g, i, long, tail);
    ShortTaken(s, i - 1);
  }

  /** The given group 1 leaves a text on which groups 2 to 4 match. */
  lemma ShortWorks(s: string, g: string, i: nat, long: string, tail: Tail)
    requires |g| <= |s| && s[..|g|] == g && s[|g|..] == long + TailText(tail)
    requires ShortAt(g, i) && LongGroup(long) && TailGroups(tail)
    ensures |s| >= 1 && s[0] == '-' && 1 <= i - 1 && i <= RunEnd(s, 1, IsWordOrDash)
    ensures ShortEnd(s, i - 1) == |g| && MatchLongAt(s, |g|).Some?
    ensures tail.typ.Some? ==> MatchLongAt(s, |g|).value.1.typ.Some?
  {
    ShortPrefix(s, g, i);
    assert s[|g|] == s[|g|..][0];
    ShortEndOfGroup(s, g, i);
    MatchLongAtComplete(s, |g|, long, tail);
  }

  /** Backtracking stops at a working length or before it. */
  lemma TryShortReaches(s: string, k: nat, k0: nat)
    requires 1 <= k0 <= k && 1 + k <= |s|
    requires MatchLongAt(s, ShortEnd(s, k0)).Some?
    ensures TryShort(s, k).Some? && k0 <= TryShort(s, k).value
  {
  }

  /** The scanner takes a `[\w-]` length `k` at least as long as a working
      `k0`; a longer one ends group 1 later. */
  lemma ShortTaken(s: string, k0: nat)
    requires s != [] && s[0] == '-' && 1 <= k0 && 1 + k0 <= RunEnd(s, 1, IsWordOrDash)
    requires MatchLongAt(s, ShortEnd(s, k0)).Some?
    ensures MatchFlags(s).Some? && MatchFlags(s).value.0.Some?
    ensures ShortEnd(s, k0) < |MatchFlags(s).value.0.value|
      || (MatchFlags(s).value.0.value == s[..ShortEnd(s, k0)]
          && MatchFlags(s).value.2 == MatchLongAt(s, ShortEnd(s, k0)).value.1)
  {
    var m := RunEnd(s, 1, IsWordOrDash) - 1;
    TryShortReaches(s, m, k0);
    MatchFlagsWithShort(s);
    var k := TryShort(s, m).value;
    if k > k0 {
      ShortLonger(s, k0, k);
    }
  }

  /** A longer `[\w-]` part ends group 1 later. */
  lemma ShortLonger(s: string, k0: nat, k: nat)
    requires 1 <= |s| && k0 < k && 1 + k <= RunEnd(s, 1, IsWordOrDash)
    ensures ShortEnd(s, k0) < ShortEnd(s, k)
  {
    ShortEndInside(s, k0);
  }

  /** A text that starts with a group-1 text starts with its `-` and its
      `[\w-]` run. */
  lemma ShortPrefix(s: string, g: string, i: nat)
    requires |g| <= |s| && s[..|g|] == g && ShortAt(g, i)
    ensures |s| >= 1 && s[0] == '-' && i <= RunEnd(s, 1, IsWordOrDash)
  {
    assert s[0] == s[..|g|][0];
    forall k | 1 <= k < i ensures IsWordOrDash(s[k]) {
      assert s[k] == s[..|g|][k];
      AllSlice(g, 1, i, IsWordOrDash);
    }
    RunEndCovers(s, 1, i, IsWordOrDash);
  }

  /** Completeness and priority: whenever the line matches the expression
      with some captures, the scanner returns a match, and it is the one a
      backtracking engine reaches first. */
  lemma MatchHeaderComplete(line: string, n: HeaderMatch)
    requires Matches(line, n)
    ensures MatchHeader(line).Some? && Prefers(MatchHeader(line).value, n)
  {
    var p := |n.lead|;
    var s := Opt(n.short) + (n.long + TailText(n.tail));
    assert line[..p] == n.lead && line[p..] == s;
    if n.short.Some? {
      var i :| ShortAt(n.short.value, i);
    }
    assert line[p] == '-';
    RunEndUnique(line, 0, p, IsSpace);
    MatchFlagsComplete(s, n);
  }
}

=== FILE: flag_parser.dfy ===
/** `parseFlags`: the flag lines of a help text become a table from flag
    names to entries. A header line opens a flag; the short name, when there
    is one, is recorded at once as an alias of the long name; the long name's
    entry is written when the next header arrives or at the end, with the
    inline description and every later non-blank line joined by spaces. */
module FlagParser {
  import opened Wrappers
  import opened Text
  import opened OrderedDict
  import opened FlagHeader

  /** A value of the flag table: `{type, description}` under a long name,
      `{alias}` under a short name. */
  datatype FlagEntry = Flag(flagType: string, description: string) | Alias(alias: string)

  /** What `parseFlags` takes from a header match: the short name (comma and
      whitespace removed), the long name, the type and the inline
      description as the first description piece. */
  datatype Header = Header(shortFlag: Option<string>, long: string, typ: string, inline: seq<string>)

  /** The fields of a header line, or None when the line is not a header. */
  function HeaderOf(line: string): Option<Header> {
    match MatchHeader(line)
    case None => None
    case Some(m) =>
      Some(Header(
        if m.short.Some? then Some(RemoveFirst(Trim(m.short.value), ',')) else None,
        m.long,
        if m.tail.typ.Some? then Trim(m.tail.typ.value) else "",
        if m.tail.rest.Some? then [Trim(m.tail.rest.value)] else []))
  }

  /** The key under which the alias of a header is written, if any (a short
      name that is present and non-empty). */
  function AliasKey(h: Header): Option<string> {
    if h.shortFlag.Some? && h.shortFlag.value != "" then h.shortFlag else None
  }

  /** The header writes key `k`: as its long name or as its alias. */
  predicate Writes(h: Header, k: string) {
    h.long == k || AliasKey(h) == Some(k)
  }

  // ---------------------------------------------------------------------
  // The specification: kinds of lines, blocks of lines, the table they write

  /** A line as `parseFlags` sees it: a header, or text (already trimmed). */
  datatype LineKind = HeaderLine(header: Header) | TextLine(text: string)

  function Classify(line: string): LineKind {
    match HeaderOf(line)
    case Some(h) => HeaderLine(h)
    case None => TextLine(Trim(line))
  }

  /** The kinds of the lines, one per line. */
  function Kinds(lines: seq<string>): (ks: seq<LineKind>)
    ensures |ks| == |lines|
  {
    if lines == [] then [] else [Classify(lines[0])] + Kinds(lines[1..])
  }

  /** A header with the trimmed non-blank lines that follow it up to the next
      header. */
  datatype FlagBlock = FlagBlock(header: Header, more: seq<string>)

  /** What a trimmed text line adds to a description: nothing when blank. */
  function Piece(text: string): seq<string> {
    if text != "" then [text] else []
  }

  /** The description lines at the start of `ks`: the text before the first
      header, blank lines dropped. */
  function Continuation(ks: seq<LineKind>): seq<string> {
    if ks == [] || ks[0].HeaderLine? then []
    else Piece(ks[0].text) + Continuation(ks[1..])
  }

  /** One block per header, in order; text before the first header belongs
      to no block. */
  function BlocksOf(ks: seq<LineKind>): (bs: seq<FlagBlock>)
    ensures |bs| <= |ks|
  {
    if ks == [] then []
    else if ks[0].HeaderLine? then [FlagBlock(ks[0].header, Continuation(ks[1..]))] + BlocksOf(ks[1..])
    else BlocksOf(ks[1..])
  }

  /** The headers among the kinds, in order. */
  function Headers(ks: seq<LineKind>): seq<Header> {
    if ks == [] then []
    else (if ks[0].HeaderLine? then [ks[0].header] else []) + Headers(ks[1..])
  }

  /** The committed entry of a block: its type, and its description pieces
      joined with single spaces and trimmed. */
  function FlagOf(b: FlagBlock): FlagEntry {
    Flag(b.header.typ, Trim(Join(" ", b.header.inline + b.more)))
  }

  /** The alias write a header makes when it is read. */
  function WithAlias(d: Dict<FlagEntry>, h: Header): Dict<FlagEntry> {
    if AliasKey(h).Some? then Put(d, AliasKey(h).value, Alias(h.long)) else d
  }

  /** The table the blocks write: for each block in turn, the alias when its
      header is read, then the long name's entry. */
  function Table(bs: seq<FlagBlock>): Dict<FlagEntry> {
    if bs == [] then []
    else
      var b := bs[|bs| - 1];
      Put(WithAlias(Table(bs[..|bs| - 1]), b.header), b.header.long, FlagOf(b))
  }

  /** The table `parseFlags` returns for `lines`. */
  function FlagTable(lines: seq<string>): Dict<FlagEntry> {
    Table(BlocksOf(Kinds(lines)))
  }

  // ---------------------------------------------------------------------
  // The state machine

  /** The entries written while the last block of `bs` is still open. */
  function Pending(bs: seq<FlagBlock>): Dict<FlagEntry>
    requires bs != []
  {
    WithAlias(Table(bs[..|bs| - 1]), bs[|bs| - 1].header)
  }

  /** The state of `parseFlags` after the lines whose blocks are `bs`: the
      entries written so far, and the open flag with its type and
      description pieces. */
  predicate InState(bs: seq<FlagBlock>, flags: Dict<FlagEntry>, currentFlag: Option<string>,
                    currentType: string, currentDescription: seq<string>)
  {
    if bs == [] then flags == [] && currentFlag.None?
    else
      var b := bs[|bs| - 1];
      currentFlag == Some(b.header.long)
      && currentType == b.header.typ
      && currentDescription == b.header.inline + b.more
      && flags == Pending(bs)
  }

  /** `parseFlags(flagLines)` */
  method ParseFlags(flagLines: seq<string>) returns (flags: Dict<FlagEntry>)
    ensures flags == FlagTable(flagLines)
  {
    flags := [];
    var currentFlag: Option<string> := None;
    var currentType := "";
    var currentDescription: seq<string> := [];
    var i := 0;
    ghost var bs: seq<FlagBlock> := [];
    assert flagLines[..i] == [];
    while i < |flagLines|
      invariant i <= |flagLines|
      invariant bs == BlocksOf(Kinds(flagLines[..i]))
      invariant InState(bs, flags, currentFlag, currentType, currentDescription)
    {
      var line := flagLines[i];
      var flagMatch := HeaderOf(line);
      LineStep(flagLines, i);
      if flagMatch.Some? {
        var h := flagMatch.value;
        CommitIsTable(bs, flags, currentFlag, currentType, currentDescription);
        if currentFlag.Some? {
          flags := Put(flags, currentFlag.value, Flag(currentType, Trim(Join(" ", currentDescription))));
          currentType := "";
          currentDescription := [];
        }
        currentFlag := Some(h.long);
        currentType := h.typ;
        currentDescription := h.inline;
        if h.shortFlag.Some? && h.shortFlag.value != "" {
          flags := Put(flags, h.shortFlag.value, Alias(h.long));
        }
        OpenState(bs, h, flags);
        bs := Feed(bs, HeaderLine(h));
      } else if currentFlag.Some? && Trim(line) != "" {
        ExtendState(bs, flags, currentFlag, currentType, currentDescription, Trim(line));
        currentDescription := currentDescription + [Trim(line)];
        bs := Feed(bs, TextLine(Trim(line)));
      } else {
        KeepState(bs, flags, currentFlag, currentType, currentDescription, Trim(line));
        bs := Feed(bs, TextLine(Trim(line)));
      }
      i := i + 1;
    }
    assert flagLines[..i] == flagLines;
    CommitIsTable(bs, flags, currentFlag, currentType, currentDescription);
    if currentFlag.Some? {
      flags := Put(flags, currentFlag.value, Flag(currentType, Trim(Join(" ", currentDescription))));
    }
  }

  /** The blocks after one more line: a header line feeds its header, any
      other line its trimmed text. */
  lemma LineStep(lines: seq<string>, i: nat)
    requires i < |lines|
    ensures HeaderOf(lines[i]).Some? ==>
      BlocksOf(Kinds(lines[..i + 1])) == Feed(BlocksOf(Kinds(lines[..i])), HeaderLine(HeaderOf(lines[i]).value))
    ensures HeaderOf(lines[i]).None? ==>
      BlocksOf(Kinds(lines[..i + 1])) == Feed(BlocksOf(Kinds(lines[..i])), TextLine(Trim(lines[i])))
  {
    KindsSnoc(lines, i);
    BlocksSnoc(Kinds(lines[..i]), Classify(lines[i]));
    ClassifyHeader(lines[i]);
  }

  lemma KindsSnoc(lines: seq<string>, i: nat)
    requires i < |lines|
    ensures Kinds(lines[..i + 1]) == Kinds(lines[..i]) + [Classify(lines[i])]
  {
    assert lines[..i + 1] == lines[..i] + [lines[i]];
    KindsAppend(lines[..i], [lines[i]]);
    KindsSingle(lines[i]);
  }

  /** Committing the open flag completes the table of the blocks so far. */
  lemma CommitIsTable(bs: seq<FlagBlock>, flags: Dict<FlagEntry>, currentFlag: Option<string>,
                      currentType: string, currentDescription: seq<string>)
    requires InState(bs, flags, currentFlag, currentType, currentDescription)
    ensures currentFlag.Some? ==> Put(flags, currentFlag.value, Flag(currentType, Trim(Join(" ", currentDescription)))) == Table(bs)
    ensures currentFlag.None? ==> flags == Table(bs)
  {
  }

  /** A header line opens a block on top of the committed table. */
  lemma OpenState(bs: seq<FlagBlock>, h: Header, flags: Dict<FlagEntry>)
    requires flags == WithAlias(Table(bs), h)
    ensures InState(Feed(bs, HeaderLine(h)), flags, Some(h.long), h.typ, h.inline)
  {
    assert (bs + [FlagBlock(h, [])])[..|bs|] == bs;
  }

  /** A non-blank text line extends the open flag's description. */
  lemma ExtendState(bs: seq<FlagBlock>, flags: Dict<FlagEntry>, currentFlag: Option<string>,
                    currentType: string, currentDescription: seq<string>, text: string)
    requires InState(bs, flags, currentFlag, currentType, currentDescription)
    requires currentFlag.Some? && text != ""
    ensures InState(Feed(bs, TextLine(text)), flags, currentFlag, currentType, currentDescription + [text])
  {
    var n := |bs|;
    var b := bs[n - 1];
    var bs' := bs[..n - 1] + [FlagBlock(b.header, b.more + [text])];
    assert Feed(bs, TextLine(text)) == bs';
    assert bs'[..n - 1] == bs[..n - 1];
    assert Pending(bs') == Pending(bs);
    assert b.header.inline + (b.more + [text]) == b.header.inline + b.more + [text];
  }

  /** Any other text line leaves the state as it is. */
  lemma KeepState(bs: seq<FlagBlock>, flags: Dict<FlagEntry>, currentFlag: Option<string>,
                  currentType: string, currentDescription: seq<string>, text: string)
    requires InState(bs, flags, currentFlag, currentType, currentDescription)
    requires !(currentFlag.Some? && text != "")
    ensures InState(Feed(bs, TextLine(text)), flags, currentFlag, currentType, currentDescription)
  {
    assert bs == [] || text == "";
    FeedKeeps(bs, text);
  }

  lemma FeedKeeps(bs: seq<FlagBlock>, text: string)
    requires bs == [] || text == ""
    ensures Feed(bs, TextLine(text)) == bs
  {
    if bs != [] {
      var b := bs[|bs| - 1];
      assert b.more + [] == b.more;
      assert bs[..|bs| - 1] + [b] == bs;
    }
  }

  /** What one more line does to the blocks: a header opens a block, text
      extends the open block, text before any header changes nothing. */
  function Feed(bs: seq<FlagBlock>, k: LineKind): seq<FlagBlock> {
    match k
    case HeaderLine(h) => bs + [FlagBlock(h, [])]
    case TextLine(t) =>
      if bs != [] then
        var b := bs[|bs| - 1];
        bs[..|bs| - 1] + [FlagBlock(b.header, b.more + Piece(t))]
      else bs
  }

  /** The blocks can be built line by line, as `parseFlags` does. */
  lemma {:induction false} BlocksSnoc(ks: seq<LineKind>, k: LineKind)
    ensures BlocksOf(ks + [k]) == Feed(BlocksOf(ks), k)
    decreases |ks|
  {
    if ks == [] {
      assert [k][1..] == [];
    } else {
      var rest := ks[1..];
      assert (ks + [k])[1..] == rest + [k];
      BlocksSnoc(rest, k);
      ContinuationSnoc(rest, k);
      BlocksEmptyIff(rest);
    }
  }

  /** The continuation grows with a line only while no header has come. */
  lemma {:induction false} ContinuationSnoc(ks: seq<LineKind>, k: LineKind)
    ensures Continuation(ks + [k]) ==
      if BlocksOf(ks) != [] || k.HeaderLine? then Continuation(ks)
      else Continuation(ks) + Piece(k.text)
    decreases |ks|
  {
    if ks == [] {
      assert [k][1..] == [];
    } else {
      assert (ks + [k])[1..] == ks[1..] + [k];
      ContinuationSnoc(ks[1..], k);
    }
  }

  /** There are no blocks exactly when there is no header. */
  lemma {:induction false} BlocksEmptyIff(ks: seq<LineKind>)
    ensures BlocksOf(ks) == [] <==> forall i | 0 <= i < |ks| :: ks[i].TextLine?
    decreases |ks|
  {
    if ks != [] {
      BlocksEmptyIff(ks[1..]);
      assert forall i | 1 <= i < |ks| :: ks[i] == ks[1..][i - 1];
    }
  }

  // ---------------------------------------------------------------------
  // Properties of the blocks

  /** One block per header, in order. */
  lemma {:induction false} BlocksHeaders(ks: seq<LineKind>)
    ensures |BlocksOf(ks)| == |Headers(ks)|
    ensures forall j | 0 <= j < |Headers(ks)| :: BlocksOf(ks)[j].header == Headers(ks)[j]
    decreases |ks|
  {
    if ks != [] {
      BlocksHeaders(ks[1..]);
    }
  }

  /** Text before a header does not reach into the blocks from that header on. */
  lemma {:induction false} BlocksSplit(front: seq<LineKind>, back: seq<LineKind>)
    requires back == [] || back[0].HeaderLine?
    ensures BlocksOf(front + back) == BlocksOf(front) + BlocksOf(back)
    decreases |front|
  {
    if front == [] {
      assert front + back == back;
    } else {
      assert (front + back)[1..] == front[1..] + back;
      BlocksSplit(front[1..], back);
      ContinuationSplit(front[1..], back);
    }
  }

  lemma {:induction false} ContinuationSplit(front: seq<LineKind>, back: seq<LineKind>)
    requires back == [] || back[0].HeaderLine?
    ensures Continuation(front + back) == Continuation(front)
    decreases |front|
  {
    if front == [] {
      assert front + back == back;
    } else {
      assert (front + back)[1..] == front[1..] + back;
      ContinuationSplit(front[1..], back);
    }
  }

  /** Text before the first header is discarded. */
  lemma {:induction false} TextPrefixDiscarded(front: seq<LineKind>, back: seq<LineKind>)
    requires forall i | 0 <= i < |front| :: front[i].TextLine?
    ensures BlocksOf(front + back) == BlocksOf(back)
    decreases |front|
  {
    if front != [] {
      assert (front + back)[0] == front[0];
      assert (front + back)[1..] == front[1..] + back;
      assert forall i | 0 <= i < |front[1..]| :: front[1..][i] == front[i + 1];
      TextPrefixDiscarded(front[1..], back);
    } else {
      assert front + back == back;
    }
  }

  /** A blank text line changes no block. */
  lemma {:induction false} BlankKindIgnored(front: seq<LineKind>, back: seq<LineKind>)
    ensures BlocksOf(front + [TextLine("")] + back) == BlocksOf(front + back)
    decreases |front|
  {
    var blank := TextLine("");
    if front == [] {
      assert front + [blank] + back == [blank] + back;
      assert ([blank] + back)[1..] == back;
      assert front + back == back;
    } else {
      assert (front + [blank] + back)[1..] == front[1..] + [blank] + back;
      assert (front + back)[1..] == front[1..] + back;
      BlankKindIgnored(front[1..], back);
      ContinuationBlank(front[1..], back);
    }
  }

  lemma {:induction false} ContinuationBlank(front: seq<LineKind>, back: seq<LineKind>)
    ensures Continuation(front + [TextLine("")] + back) == Continuation(front + back)
    decreases |front|
  {
    var blank := TextLine("");
    if front == [] {
      assert front + [blank] + back == [blank] + back;
      assert ([blank] + back)[1..] == back;
      assert front + back == back;
    } else {
      assert (front + [blank] + back)[1..] == front[1..] + [blank] + back;
      assert (front + back)[1..] == front[1..] + back;
      ContinuationBlank(front[1..], back);
    }
  }

  // ---------------------------------------------------------------------
  // Properties of the table

  /** The table of `bs` after the table of all but its last block. */
  lemma TableStep(bs: seq<FlagBlock>, k: string)
    requires bs != []
    ensures var b := bs[|bs| - 1];
      Get(Table(bs), k) ==
        if b.header.long == k then Some(FlagOf(b))
        else if AliasKey(b.header) == Some(k) then Some(Alias(b.header.long))
        else Get(Table(bs[..|bs| - 1]), k)
  {
    var n := |bs|;
    var b := bs[n - 1];
    var t := Table(bs[..n - 1]);
    var w := WithAlias(t, b.header);
    assert Table(bs) == Put(w, b.header.long, FlagOf(b));
    PutGetKeys(w, b.header.long, FlagOf(b));
    if AliasKey(b.header).Some? {
      PutGetKeys(t, AliasKey(b.header).value, Alias(b.header.long));
    }
    if b.header.long != k {
      GetPutOther(w, b.header.long, FlagOf(b), k);
      if AliasKey(b.header).Some? && AliasKey(b.header) != Some(k) {
        GetPutOther(t, AliasKey(b.header).value, Alias(b.header.long), k);
      }
    }
  }

  /** What a block writes under `k`: its entry when `k` is its long name,
      its alias record otherwise. */
  function WriteOf(b: FlagBlock, k: string): FlagEntry {
    if b.header.long == k then FlagOf(b) else Alias(b.header.long)
  }

  /** The entry under `k` is the last write to `k`: the commit when the last
      header writing `k` has it as long name, its alias record otherwise. */
  lemma {:induction false} TableLastWrite(bs: seq<FlagBlock>, j: nat, k: string)
    requires j < |bs| && Writes(bs[j].header, k)
    requires forall j' | j < j' < |bs| :: !Writes(bs[j'].header, k)
    ensures Get(Table(bs), k) == Some(WriteOf(bs[j], k))
    decreases |bs|, 1
  {
    if j < |bs| - 1 {
      TableLastWriteEarlier(bs, j, k);
    } else {
      TableStep(bs, k);
    }
  }

  /** The case of `TableLastWrite` where later blocks follow block `j`. */
  lemma {:induction false} TableLastWriteEarlier(bs: seq<FlagBlock>, j: nat, k: string)
    requires j < |bs| - 1 && Writes(bs[j].header, k)
    requires forall j' | j < j' < |bs| :: !Writes(bs[j'].header, k)
    ensures Get(Table(bs), k) == Some(WriteOf(bs[j], k))
    decreases |bs|, 0
  {
    var init := bs[..|bs| - 1];
    InitKeepsLaterSilent(bs, j, k);
    TableLastWrite(init, j, k);
    TableSilentStep(bs, k);
  }

  lemma InitKeepsLaterSilent(bs: seq<FlagBlock>, j: nat, k: string)
    requires j < |bs| - 1 && Writes(bs[j].header, k)
    requires forall j' | j < j' < |bs| :: !Writes(bs[j'].header, k)
    ensures var init := bs[..|bs| - 1];
      j < |init| && init[j] == bs[j] && Writes(init[j].header, k)
      && (forall j' | j < j' < |init| :: !Writes(init[j'].header, k))
      && !Writes(bs[|bs| - 1].header, k)
  {
  }

  /** A block that does not write `k` leaves its entry alone. */
  lemma TableSilentStep(bs: seq<FlagBlock>, k: string)
    requires bs != [] && !Writes(bs[|bs| - 1].header, k)
    ensures Get(Table(bs), k) == Get(Table(bs[..|bs| - 1]), k)
  {
    TableStep(bs, k);
  }

  /** The keys of the table are the names the headers write, long names and
      aliases, and nothing else. */
  lemma {:induction false} TableKeys(bs: seq<FlagBlock>, k: string)
    ensures Get(Table(bs), k).Some? <==> exists j | 0 <= j < |bs| :: Writes(bs[j].header, k)
    decreases |bs|
  {
    if bs != [] {
      var init := bs[..|bs| - 1];
      TableKeys(init, k);
      if Writes(bs[|bs| - 1].header, k) {
        TableStep(bs, k);
      } else {
        TableSilentStep(bs, k);
        InitWrites(bs, init, k);
      }
    }
  }

  lemma InitWrites(bs: seq<FlagBlock>, init: seq<FlagBlock>, k: string)
    requires bs != [] && init == bs[..|bs| - 1] && !Writes(bs[|bs| - 1].header, k)
    ensures (exists j | 0 <= j < |bs| :: Writes(bs[j].header, k))
      <==> exists j | 0 <= j < |init| :: Writes(init[j].header, k)
  {
    if exists j | 0 <= j < |bs| :: Writes(bs[j].header, k) {
      var j :| 0 <= j < |bs| && Writes(bs[j].header, k);
      assert init[j] == bs[j];
    }
  }

  /** No key appears twice in the table. */
  lemma {:induction false} TableDistinct(bs: seq<FlagBlock>)
    ensures DistinctKeys(Table(bs))
    decreases |bs|
  {
    if bs != [] {
      var n := |bs|;
      var b := bs[n - 1];
      TableDistinct(bs[..n - 1]);
      var t := Table(bs[..n - 1]);
      if AliasKey(b.header).Some? {
        PutKeepsKeysDistinct(t, AliasKey(b.header).value, Alias(b.header.long));
      }
      PutKeepsKeysDistinct(WithAlias(t, b.header), b.header.long, FlagOf(b));
    }
  }

  // ---------------------------------------------------------------------
  // The table of a list of flag lines

  /** Line `i` is a header exactly when its kind is. */
  lemma ClassifyHeader(line: string)
    ensures Classify(line).HeaderLine? <==> HeaderOf(line).Some?
    ensures HeaderOf(line).Some? ==> Classify(line).header == HeaderOf(line).value
    ensures HeaderOf(line).None? ==> Classify(line).text == Trim(line)
  {
  }

  lemma {:induction false} KindsAppend(a: seq<string>, b: seq<string>)
    ensures Kinds(a + b) == Kinds(a) + Kinds(b)
    decreases |a|
  {
    if a == [] {
      assert a + b == b;
    } else {
      assert (a + b)[1..] == a[1..] + b;
      KindsAppend(a[1..], b);
    }
  }

  lemma {:induction false} KindAt(lines: seq<string>, i: nat)
    requires i < |lines|
    ensures Kinds(lines)[i] == Classify(lines[i])
    decreases i
  {
    if i > 0 {
      KindAt(lines[1..], i - 1);
    }
  }

  /** The kinds of the lines around line `i`. */
  lemma KindsAround(lines: seq<string>, i: nat)
    requires i < |lines|
    ensures Kinds(lines) == Kinds(lines[..i]) + ([Classify(lines[i])] + Kinds(lines[i + 1..]))
  {
    SplitAround(lines, i);
    KindsAppend(lines[..i], [lines[i]] + lines[i + 1..]);
    KindsCons(lines[i], lines[i + 1..]);
  }

  lemma SplitAround(lines: seq<string>, i: nat)
    requires i < |lines|
    ensures lines == lines[..i] + ([lines[i]] + lines[i + 1..])
  {
  }

  lemma KindsCons(line: string, lines: seq<string>)
    ensures Kinds([line] + lines) == [Classify(line)] + Kinds(lines)
  {
    assert ([line] + lines)[1..] == lines;
  }

  lemma KindsSingle(line: string)
    ensures Kinds([line]) == [Classify(line)]
  {
    assert [line][1..] == [];
  }

  /** The blocks around a header: those before it, its own, those after it. */
  lemma BlocksAround(front: seq<LineKind>, h: Header, later: seq<LineKind>)
    ensures BlocksOf(front + ([HeaderLine(h)] + later))
      == BlocksOf(front) + [FlagBlock(h, Continuation(later))] + BlocksOf(later)
  {
    BlocksSplit(front, [HeaderLine(h)] + later);
    BlocksCons(h, later);
  }

  lemma BlocksCons(h: Header, later: seq<LineKind>)
    ensures BlocksOf([HeaderLine(h)] + later) == [FlagBlock(h, Continuation(later))] + BlocksOf(later)
  {
    assert ([HeaderLine(h)] + later)[1..] == later;
  }

  /** `TableLastWrite` for the block of a header with the kinds around it. */
  lemma KindsLastWrite(front: seq<LineKind>, h: Header, later: seq<LineKind>, k: string)
    requires Writes(h, k)
    requires forall h' | h' in Headers(later) :: !Writes(h', k)
    ensures Get(Table(BlocksOf(front + ([HeaderLine(h)] + later))), k)
      == Some(WriteOf(FlagBlock(h, Continuation(later)), k))
  {
    BlocksAround(front, h, later);
    var b := FlagBlock(h, Continuation(later));
    var bs := BlocksOf(front) + [b] + BlocksOf(later);
    var j := |BlocksOf(front)|;
    BlocksHeaders(later);
    forall j' | j < j' < |bs| ensures !Writes(bs[j'].header, k) {
      assert bs[j'] == BlocksOf(later)[j' - j - 1];
      assert BlocksOf(later)[j' - j - 1].header in Headers(later);
    }
    assert bs[j] == b;
    TableLastWrite(bs, j, k);
  }

  /** A header line's long name gets its type and its description: the
      inline text and the non-blank lines up to the next header, joined with
      single spaces and trimmed, unless a later header writes the same name;
      its short name gets the alias record. A repeated long name keeps only
      the last commit. */
  lemma FlagTableLastWrite(lines: seq<string>, i: nat, k: string)
    requires i < |lines| && HeaderOf(lines[i]).Some? && Writes(HeaderOf(lines[i]).value, k)
    requires forall h | h in Headers(Kinds(lines[i + 1..])) :: !Writes(h, k)
    ensures var h := HeaderOf(lines[i]).value;
      Get(FlagTable(lines), k) == Some(WriteOf(FlagBlock(h, Continuation(Kinds(lines[i + 1..]))), k))
  {
    ClassifyHeader(lines[i]);
    KindsAround(lines, i);
    KindsLastWrite(Kinds(lines[..i]), HeaderOf(lines[i]).value, Kinds(lines[i + 1..]), k);
  }

  /** The keys of the table are exactly the names the header lines write. */
  lemma FlagTableKeys(lines: seq<string>, k: string)
    ensures k in Keys(FlagTable(lines)) <==> exists h | h in Headers(Kinds(lines)) :: Writes(h, k)
  {
    var ks := Kinds(lines);
    BlocksHeaders(ks);
    TableKeys(BlocksOf(ks), k);
    SomeBlockWrites(BlocksOf(ks), Headers(ks), k);
  }

  lemma SomeBlockWrites(bs: seq<FlagBlock>, hs: seq<Header>, k: string)
    requires |bs| == |hs| && forall j | 0 <= j < |hs| :: bs[j].header == hs[j]
    ensures (exists j | 0 <= j < |bs| :: Writes(bs[j].header, k)) <==> exists h | h in hs :: Writes(h, k)
  {
    if exists h | h in hs :: Writes(h, k) {
      var h :| h in hs && Writes(h, k);
      var j :| 0 <= j < |hs| && hs[j] == h;
      assert Writes(bs[j].header, k);
    }
  }

  /** The table is empty exactly when no line is a header. */
  lemma NoHeaderNoFlags(lines: seq<string>)
    ensures FlagTable(lines) == [] <==> forall i | 0 <= i < |lines| :: HeaderOf(lines[i]).None?
  {
    var ks := Kinds(lines);
    BlocksEmptyIff(ks);
    forall i | 0 <= i < |lines| ensures ks[i].TextLine? <==> HeaderOf(lines[i]).None? {
      KindAt(lines, i);
      ClassifyHeader(lines[i]);
    }
    var bs := BlocksOf(ks);
    if bs != [] {
      var b := bs[|bs| - 1];
      PutGetKeys(WithAlias(Table(bs[..|bs| - 1]), b.header), b.header.long, FlagOf(b));
      assert Get(FlagTable(lines), b.header.long).Some?;
    }
  }

  /** Lines before the first header are discarded. */
  lemma PreambleDiscarded(preamble: seq<string>, rest: seq<string>)
    requires forall i | 0 <= i < |preamble| :: HeaderOf(preamble[i]).None?
    ensures FlagTable(preamble + rest) == FlagTable(rest)
  {
    KindsAppend(preamble, rest);
    forall i | 0 <= i < |preamble| ensures Kinds(preamble)[i].TextLine? {
      KindAt(preamble, i);
      ClassifyHeader(preamble[i]);
    }
    TextPrefixDiscarded(Kinds(preamble), Kinds(rest));
  }

  /** Blank lines neither end a flag nor add to its description. */
  lemma BlankLineIgnored(front: seq<string>, blank: string, back: seq<string>)
    requires Trim(blank) == ""
    ensures FlagTable(front + [blank] + back) == FlagTable(front + back)
  {
    KindsBlank(front, blank, back);
    KindsAppend(front, back);
    BlankKindIgnored(Kinds(front), Kinds(back));
  }

  lemma KindsBlank(front: seq<string>, blank: string, back: seq<string>)
    requires Trim(blank) == ""
    ensures Kinds(front + [blank] + back) == Kinds(front) + [TextLine("")] + Kinds(back)
  {
    BlankIsNotHeader(blank);
    ClassifyHeader(blank);
    KindsSingle(blank);
    KindsAppend(front + [blank], back);
    KindsAppend(front, [blank]);
  }

  /** A blank line is never a header. */
  lemma BlankIsNotHeader(line: string)
    requires Trim(line) == ""
    ensures HeaderOf(line).None?
  {
    TrimEmptyIffAllSpace(line);
    RunEndUnique(line, 0, |line|, IsSpace);
  }

  /** The table never holds a key twice. */
  lemma FlagTableDistinct(lines: seq<string>)
    ensures DistinctKeys(FlagTable(lines))
  {
    TableDistinct(BlocksOf(Kinds(lines)));
  }

  // ---------------------------------------------------------------------
  // The fields of a header

  /** The short name is group 1 without its comma and whitespace: the `-`
      and the `[\w-]` run that follows it. */
  lemma ShortFlagName(line: string, i: nat)
    requires MatchHeader(line).Some? && MatchHeader(line).value.short.Some?
    requires ShortAt(MatchHeader(line).value.short.value, i)
    ensures HeaderOf(line).value.shortFlag == Some(MatchHeader(line).value.short.value[..i])
    ensures AliasKey(HeaderOf(line).value) == Some(MatchHeader(line).value.short.value[..i])
  {
    ShortName(MatchHeader(line).value.short.value, i);
  }

  /** `g.trim().replace(",", "")` on a group-1 text `g` keeps the `-` and
      the `[\w-]` run. */
  lemma ShortName(g: string, i: nat)
    requires ShortAt(g, i)
    ensures RemoveFirst(Trim(g), ',') == g[..i]
  {
    var name := g[..i];
    var x := g[i..];
    assert g == name + x;
    ShortNameChars(g, i);
    if All(x, IsSpace) {
      ShortNameSpaces(name, x);
    } else {
      ShortNameComma(name, x);
    }
  }

  lemma ShortNameSpaces(name: string, x: string)
    requires |name| >= 1 && name[0] == '-' && ',' !in name && !IsSpace(name[|name| - 1])
    requires All(x, IsSpace)
    ensures RemoveFirst(Trim(name + x), ',') == name
  {
    assert name + x == [] + name + x;
    TrimOf([], name, x);
  }

  /** The `-[\w-]+` part of a group-1 text holds no comma and does not end
      in white space. */
  lemma ShortNameChars(g: string, i: nat)
    requires ShortAt(g, i)
    ensures ',' !in g[..i] && !IsSpace(g[i - 1])
  {
    AllSlice(g, 1, i, IsWordOrDash);
    forall k | 0 <= k < i ensures g[..i][k] != ',' {
      if k > 0 {
        assert IsWordOrDash(g[k]);
      }
    }
    SpaceIsInNoOtherClass(g[i - 1]);
  }

  lemma ShortNameComma(name: string, x: string)
    requires |name| >= 1 && name[0] == '-' && ',' !in name && !IsSpace(name[|name| - 1])
    requires |x| > 0 && x[0] == ',' && All(x[1..], IsSpace)
    ensures RemoveFirst(Trim(name + x), ',') == name
  {
    TrimComma(name, x);
    RemoveLastComma(name);
  }

  lemma TrimComma(name: string, x: string)
    requires |name| >= 1 && name[0] == '-'
    requires |x| > 0 && x[0] == ',' && All(x[1..], IsSpace)
    ensures Trim(name + x) == name + [',']
  {
    var withComma := name + [','];
    assert x == [','] + x[1..];
    assert name + x == [] + withComma + x[1..];
    assert withComma[0] == '-' && withComma[|withComma| - 1] == ',';
    TrimOf([], withComma, x[1..]);
  }

  lemma RemoveLastComma(name: string)
    requires ',' !in name
    ensures RemoveFirst(name + [','], ',') == name
  {
    var withComma := name + [','];
    assert withComma[..|name|] == name;
    RemoveFirstAt(withComma, ',', |name|);
    assert withComma[|name| + 1..] == [];
  }

  /** The type is the word of group 3 without its leading whitespace. */
  lemma TypeIsWord(line: string, w: nat)
    requires MatchHeader(line).Some? && MatchHeader(line).value.tail.typ.Some?
    requires TypeAt(MatchHeader(line).value.tail.typ.value, w)
    ensures HeaderOf(line).value.typ == MatchHeader(line).value.tail.typ.value[w..]
  {
    TrimType(MatchHeader(line).value.tail.typ.value, w);
  }

  /** The inline description is group 4 trimmed, or nothing without group 4. */
  lemma InlineIsRest(line: string)
    requires MatchHeader(line).Some?
    ensures var m := MatchHeader(line).value;
      HeaderOf(line).value.inline == (if m.tail.rest.Some? then [Trim(m.tail.rest.value)] else [])
  {
  }

  /** On a trimmed line, as every flag line is, the inline description is
      group 4 without its leading whitespace. */
  lemma InlineOfTrimmedLine(line: string)
    requires MatchHeader(line).Some? && MatchHeader(line).value.tail.rest.Some? && IsTrimmed(line)
    ensures var rest := MatchHeader(line).value.tail.rest.value;
      HeaderOf(line).value.inline == [rest[RunEnd(rest, 0, IsSpace)..]]
  {
    InlineIsRest(line);
    MatchHeaderSound(line);
    TrimmedRest(line, MatchHeader(line).value);
  }

  /** Group 4 ends the text of a match. */
  lemma TrimmedRest(line: string, m: HeaderMatch)
    requires line == MatchText(m) && m.tail.rest.Some? && RestGroup(m.tail.rest.value) && IsTrimmed(line)
    ensures Trim(m.tail.rest.value) == m.tail.rest.value[RunEnd(m.tail.rest.value, 0, IsSpace)..]
  {
    var rest := m.tail.rest.value;
    var pre := m.lead + (Opt(m.short) + (m.long + Opt(m.tail.typ)));
    assert line == pre + rest;
    var i :| RestAt(rest, i);
    TrimTrailingText(pre, rest);
  }

  /** Trimming a non-empty end of a trimmed text only drops its leading
      whitespace. */
  lemma TrimTrailingText(pre: string, rest: string)
    requires rest != [] && IsTrimmed(pre + rest)
    ensures Trim(rest) == rest[RunEnd(rest, 0, IsSpace)..]
  {
    var w := RunEnd(rest, 0, IsSpace);
    assert rest[|rest| - 1] == (pre + rest)[|pre + rest| - 1];
    AllPrefix(rest, w, IsSpace);
    assert rest == rest[..w] + rest[w..] + [];
    TrimOf(rest[..w], rest[w..], []);
  }

  /** Without group 3 the type is "". */
  lemma NoTypeGroupNoType(line: string)
    requires MatchHeader(line).Some? && MatchHeader(line).value.tail.typ.None?
    ensures HeaderOf(line).value.typ == ""
  {
  }

  lemma TrimType(t: string, w: nat)
    requires TypeAt(t, w)
    ensures Trim(t) == t[w..]
  {
    AllSuffix(t, w, IsTypeChar);
    SpaceIsInNoOtherClass(t[w]);
    SpaceIsInNoOtherClass(t[|t| - 1]);
    assert t == t[..w] + t[w..] + [];
    TrimOf(t[..w], t[w..], []);
  }

  // ---------------------------------------------------------------------
  // Header lines of the usual shapes

  /** A long flag without inner dashes, a type word after whitespace, and a
      description after whitespace. */
  predicate LongTypeRest(long: string, typ: string, w: nat, rest: string) {
    |long| >= 3 && long[0] == '-' && long[1] == '-' && All(long[2..], IsWordChar)
    && TypeAt(typ, w)
    && |rest| > 1 && IsSpace(rest[0]) && IsTrimmed(rest[1..]) && All(rest, IsNotLineTerminator)
  }

  /** `--name  type  description`: no short flag; the type is the word, the
      description the rest without its leading whitespace. */
  lemma HeaderNoShort(line: string, long: string, typ: string, w: nat, rest: string)
    requires line == long + typ + rest && LongTypeRest(long, typ, w, rest)
    ensures HeaderOf(line) == Some(Header(None, long, typ[w..], [rest[1..]]))
  {
    MatchNoShort(line, long, typ, w, rest);
    HeaderFields(typ, w, rest);
  }

  /** `-x, --name  type  description`: the short flag is `-x`, where `x` is a
      `[\w-]+` run and so may itself start with a dash. */
  lemma HeaderWithShort(line: string, name: string, sp: string, long: string, typ: string, w: nat, rest: string)
    requires line == ['-'] + name + [','] + sp + long + typ + rest
    requires name != [] && All(name, IsWordOrDash) && sp != [] && All(sp, IsSpace)
    requires LongTypeRest(long, typ, w, rest)
    ensures HeaderOf(line) == Some(Header(Some(['-'] + name), long, typ[w..], [rest[1..]]))
  {
    var short := ['-'] + name + [','] + sp;
    MatchWithShort(line, short, name, sp, long, typ, w, rest);
    HeaderFields(typ, w, rest);
    ShortText(name, sp);
  }

  lemma HeaderFields(typ: string, w: nat, rest: string)
    requires TypeAt(typ, w) && |rest| > 1 && IsSpace(rest[0]) && IsTrimmed(rest[1..])
    ensures Trim(typ) == typ[w..] && Trim(rest) == rest[1..]
  {
    TrimType(typ, w);
    assert rest == [rest[0]] + rest[1..] + [];
    TrimOf([rest[0]], rest[1..], []);
  }

  lemma ShortText(name: string, sp: string)
    requires All(name, IsWordOrDash) && sp != [] && All(sp, IsSpace)
    ensures RemoveFirst(Trim(['-'] + name + [','] + sp), ',') == ['-'] + name
  {
    var dashed := ['-'] + name;
    assert ',' !in dashed by {
      forall k | 0 <= k < |dashed| ensures dashed[k] != ',' {
        if k > 0 {
          assert dashed[k] == name[k - 1];
        }
      }
    }
    TrimOf([], dashed + [','], sp);
    assert [] + (dashed + [',']) + sp == ['-'] + name + [','] + sp;
    RemoveLastComma(dashed);
  }

  lemma MatchNoShort(line: string, long: string, typ: string, w: nat, rest: string)
    requires line == long + typ + rest && LongTypeRest(long, typ, w, rest)
    ensures MatchHeader(line) == Some(HeaderMatch([], None, long, Tail(Some(typ), Some(rest))))
  {
    RunEndUnique(line, 0, 0, IsSpace);
    assert line[0..] == line && line[..0] == [];
    var after := typ + rest;
    assert line == long + after;
    AllPrefix(typ, w, IsSpace);
    AllSuffix(typ, w, IsTypeChar);
    assert after[w] == typ[w];
    SpaceIsInNoOtherClass(typ[w]);
    RunEndUnique(after, 0, w, IsSpace);
    NoShortBeforeLong(line, long, after);
    LongAtExample(line, 0, long, typ, w, rest);
  }

  lemma MatchWithShort(line: string, short: string, name: string, sp: string, long: string, typ: string, w: nat, rest: string)
    requires short == ['-'] + name + [','] + sp && line == short + (long + typ + rest)
    requires name != [] && All(name, IsWordOrDash) && sp != [] && All(sp, IsSpace)
    requires LongTypeRest(long, typ, w, rest)
    ensures MatchHeader(line) == Some(HeaderMatch([], Some(short), long, Tail(Some(typ), Some(rest))))
  {
    RunEndUnique(line, 0, 0, IsSpace);
    assert line[0..] == line && line[..0] == [];
    ShortRuns(line, short, name, sp, long);
    assert line[|short|..] == long + typ + rest;
    LongAtExample(line, |short|, long, typ, w, rest);
    assert line[..|short|] == short;
  }

  lemma ShortRuns(line: string, short: string, name: string, sp: string, long: string)
    requires short == ['-'] + name + [','] + sp && |short| < |line| && line[..|short|] == short
    requires name != [] && All(name, IsWordOrDash) && sp != [] && All(sp, IsSpace)
    requires line[|short|] == '-'
    ensures RunEnd(line, 1, IsWordOrDash) == 1 + |name|
    ensures ShortEnd(line, |name|) == |short|
  {
    forall k | 1 <= k < 1 + |name| ensures IsWordOrDash(line[k]) {
      assert line[k] == short[k] == name[k - 1];
    }
    assert line[1 + |name|] == short[1 + |name|] == ',';
    RunEndUnique(line, 1, 1 + |name|, IsWordOrDash);
    forall m | 2 + |name| <= m < |short| ensures IsSpace(line[m]) {
      assert line[m] == short[m] == sp[m - 2 - |name|];
    }
    RunEndUnique(line, 2 + |name|, |short|, IsSpace);
  }

  /** No group 1 can end before a long flag that starts the line. */
  lemma NoShortBeforeLong(s: string, long: string, after: string)
    requires s == long + after && |long| >= 3 && long[0] == '-' && long[1] == '-' && All(long[2..], IsWordChar)
    requires after != [] && IsSpace(after[0])
    requires RunEnd(after, 0, IsSpace) < |after| && after[RunEnd(after, 0, IsSpace)] != '-'
    ensures RunEnd(s, 1, IsWordOrDash) == |long|
    ensures TryShort(s, |long| - 1).None?
  {
    forall k | 1 <= k < |long| ensures IsWordOrDash(s[k]) {
      if k >= 2 {
        assert s[k] == long[2..][k - 2];
      }
    }
    SpaceIsInNoOtherClass(s[|long|]);
    RunEndUnique(s, 1, |long|, IsWordOrDash);
    forall k | 1 <= k <= |long| - 1 ensures MatchLongAt(s, ShortEnd(s, k)).None? {
      if k < |long| - 1 {
        InsideLong(s, long, k);
      } else {
        AfterSpaces(s, long, after);
      }
    }
  }

  /** Group 1 cut inside the long flag leaves no room for group 2. */
  lemma InsideLong(s: string, long: string, k: nat)
    requires |long| >= 3 && |long| <= |s| && s[..|long|] == long
    requires long[0] == '-' && long[1] == '-' && All(long[2..], IsWordChar)
    requires 1 <= k < |long| - 1
    ensures MatchLongAt(s, ShortEnd(s, k)).None?
  {
    assert s[1 + k] == long[2..][k - 1];
    RunEndUnique(s, 1 + k, 1 + k, IsSpace);
  }

  lemma AfterSpaces(s: string, long: string, after: string)
    requires s == long + after && |long| >= 2
    requires after != [] && IsSpace(after[0])
    requires RunEnd(after, 0, IsSpace) < |after| && after[RunEnd(after, 0, IsSpace)] != '-'
    ensures MatchLongAt(s, ShortEnd(s, |long| - 1)).None?
  {
    var w := RunEnd(after, 0, IsSpace);
    forall m | |long| <= m < |long| + w ensures IsSpace(s[m]) {
      assert s[m] == after[m - |long|];
    }
    assert s[|long| + w] == after[w];
    RunEndUnique(s, |long|, |long| + w, IsSpace);
  }

  /** Groups 2 to 4 on a long flag, a type word and a description. */
  lemma LongAtExample(s: string, j: nat, long: string, typ: string, w: nat, rest: string)
    requires j <= |s| && s[j..] == long + typ + rest && LongTypeRest(long, typ, w, rest)
    ensures MatchLongAt(s, j) == Some((long, Tail(Some(typ), Some(rest))))
  {
    var e := j + |long|;
    forall k | j + 2 <= k < e ensures IsWordOrDash(s[k]) {
      assert s[k] == s[j..][k - j] == long[2..][k - j - 2];
    }
    assert s[j + 2] == long[2];
    assert s[e] == s[j..][|long|] == typ[0];
    AllPrefix(typ, w, IsSpace);
    SpaceIsInNoOtherClass(s[e]);
    RunEndUnique(s, j + 2, e, IsWordOrDash);
    assert s[e..] == typ + rest;
    assert s[j..e] == long;
    TailExample(s[e..], w, typ, rest);
  }

  /** The tail scanner on whitespace, a word, and a text that starts with
      whitespace and holds no line terminator. */
  lemma TailExample(r: string, w: nat, typ: string, rest: string)
    requires r == typ + rest && TypeAt(typ, w)
    requires |rest| > 1 && IsSpace(rest[0]) && !IsSpace(rest[1]) && All(rest, IsNotLineTerminator)
    ensures MatchTail(r) == Some(Tail(Some(typ), Some(rest)))
  {
    AllPrefix(typ, w, IsSpace);
    AllSuffix(typ, w, IsTypeChar);
    assert r[0] == typ[0];
    SpaceIsInNoOtherClass(typ[w]);
    SpaceIsInNoOtherClass(rest[0]);
    RunEndUnique(r, 0, w, IsSpace);
    RunEndUnique(r, w, |typ|, IsTypeChar);
    assert r[|typ|..] == rest && r[..|typ|] == typ;
    RunEndUnique(rest, 0, 1, IsSpace);
    AllSuffix(rest, 1, IsNotLineTerminator);
  }

  /** A help line without a short flag. */
  lemma HelpHeaderExample()
    ensures HeaderOf("--help   help for tool") == Some(Header(None, "--help", "help", ["for tool"]))
  {
    var long, typ, rest := "--help", "   help", " for tool";
    assert typ[..3] == "   " && typ[3..] == "help";
    assert rest[1..] == "for tool";
    assert long[2..] == "help";
    assert long + typ + rest == "--help   help for tool";
    HeaderNoShort(long + typ + rest, long, typ, 3, rest);
  }

  /** A line with a short flag, such as `-v, --verbose  enable verbose output`:
      the type is the first word after the long flag, whatever the description. */
  lemma VerboseHeaderExample(desc: string)
    requires desc != [] && IsTrimmed(desc) && All(desc, IsNotLineTerminator)
    ensures HeaderOf("-v, --verbose  enable " + desc)
         == Some(Header(Some("-v"), "--verbose", "enable", [desc]))
  {
    VerboseParts();
    DescriptionAfterSpace(desc);
    VerboseLine(desc);
    HeaderWithShort("-v, --verbose  enable " + desc, "v", " ", "--verbose", "  enable", 2, " " + desc);
  }

  lemma VerboseParts()
    ensures All("v", IsWordOrDash) && All(" ", IsSpace)
    ensures |"--verbose"| >= 3 && All("--verbose"[2..], IsWordChar) && TypeAt("  enable", 2)
    ensures "  enable"[2..] == "enable" && ['-'] + "v" == "-v"
  {
    assert "--verbose"[2..] == "verbose";
    assert "  enable"[..2] == "  " && "  enable"[2..] == "enable";
  }

  lemma DescriptionAfterSpace(desc: string)
    requires desc != [] && IsTrimmed(desc) && All(desc, IsNotLineTerminator)
    ensures var rest := " " + desc;
      |rest| > 1 && IsSpace(rest[0]) && IsTrimmed(rest[1..]) && All(rest, IsNotLineTerminator)
  {
    var rest := " " + desc;
    forall k | 0 <= k < |rest| ensures IsNotLineTerminator(rest[k]) {
      if k > 0 {
        assert rest[k] == desc[k - 1];
      }
    }
    assert rest[1..] == desc;
  }

  lemma VerboseLine(desc: string)
    ensures ['-'] + "v" + [','] + " " + "--verbose" + "  enable" + (" " + desc) == "-v, --verbose  enable " + desc
  {
  }

  // ---------------------------------------------------------------------
  // Where aliases point

  /** When no short name is also a long name, every alias record names a
      key that holds a flag entry, and that key is some header's long name. */
  lemma {:induction false} AliasTargetIsFlag(bs: seq<FlagBlock>, k: string, t: string)
    requires forall i, j {:trigger AliasKey(bs[i].header), bs[j].header.long} | 0 <= i < |bs| && 0 <= j < |bs| :: AliasKey(bs[i].header) != Some(bs[j].header.long)
    requires Get(Table(bs), k) == Some(Alias(t))
    ensures Get(Table(bs), t).Some? && Get(Table(bs), t).value.Flag?
    ensures exists j | 0 <= j < |bs| :: bs[j].header.long == t
    decreases |bs|
  {
    assert bs != [];
    var n := |bs|;
    var b := bs[n - 1];
    TableStep(bs, k);
    if b.header.long == k {
      assert false;
    } else if AliasKey(b.header) == Some(k) {
      TableStep(bs, t);
      assert bs[n - 1].header.long == t;
    } else {
      var init := bs[..n - 1];
      AliasTargetsBelow(bs, init);
      AliasTargetIsFlag(init, k, t);
      var j :| 0 <= j < |init| && init[j].header.long == t;
      assert init[j] == bs[j];
      assert AliasKey(bs[n - 1].header) != Some(bs[j].header.long);
      AliasTargetKept(bs, j, t);
    }
  }

  lemma AliasTargetsBelow(bs: seq<FlagBlock>, init: seq<FlagBlock>)
    requires bs != [] && init == bs[..|bs| - 1]
    requires forall i, j {:trigger AliasKey(bs[i].header), bs[j].header.long} | 0 <= i < |bs| && 0 <= j < |bs| :: AliasKey(bs[i].header) != Some(bs[j].header.long)
    ensures forall i, j {:trigger AliasKey(init[i].header), init[j].header.long} | 0 <= i < |init| && 0 <= j < |init| :: AliasKey(init[i].header) != Some(init[j].header.long)
  {
    forall i, j | 0 <= i < |init| && 0 <= j < |init|
      ensures AliasKey(init[i].header) != Some(init[j].header.long)
    {
      assert init[i] == bs[i] && init[j] == bs[j];
    }
  }

  /** A flag entry under an earlier long name survives one more block that
      does not alias it. */
  lemma AliasTargetKept(bs: seq<FlagBlock>, j: nat, t: string)
    requires j < |bs| - 1 && bs[j].header.long == t
    requires AliasKey(bs[|bs| - 1].header) != Some(bs[j].header.long)
    requires Get(Table(bs[..|bs| - 1]), t).Some? && Get(Table(bs[..|bs| - 1]), t).value.Flag?
    ensures Get(Table(bs), t).Some? && Get(Table(bs), t).value.Flag?
    ensures exists i | 0 <= i < |bs| :: bs[i].header.long == t
  {
    TableStep(bs, t);
  }

  /** The same for the table `parseFlags` returns: when no header's short
      name is any header's long name, every alias points at a flag entry
      of the table. */
  lemma FlagAliasTargetIsFlag(lines: seq<string>, k: string, t: string)
    requires forall h1, h2 | h1 in Headers(Kinds(lines)) && h2 in Headers(Kinds(lines)) :: AliasKey(h1) != Some(h2.long)
    requires Get(FlagTable(lines), k) == Some(Alias(t))
    ensures Get(FlagTable(lines), t).Some? && Get(FlagTable(lines), t).value.Flag?
    ensures exists h | h in Headers(Kinds(lines)) :: h.long == t
  {
    BlocksHeaders(Kinds(lines));
    AliasTargetOfHeaders(BlocksOf(Kinds(lines)), Headers(Kinds(lines)), k, t);
  }

  lemma AliasTargetOfHeaders(bs: seq<FlagBlock>, hs: seq<Header>, k: string, t: string)
    requires |bs| == |hs| && forall j | 0 <= j < |hs| :: bs[j].header == hs[j]
    requires forall h1, h2 | h1 in hs && h2 in hs :: AliasKey(h1) != Some(h2.long)
    requires Get(Table(bs), k) == Some(Alias(t))
    ensures Get(Table(bs), t).Some? && Get(Table(bs), t).value.Flag?
    ensures exists h | h in hs :: h.long == t
  {
    forall i, j | 0 <= i < |bs| && 0 <= j < |bs| ensures AliasKey(bs[i].header) != Some(bs[j].header.long) {
      assert hs[i] in hs && hs[j] in hs;
    }
    AliasTargetIsFlag(bs, k, t);
    var j :| 0 <= j < |bs| && bs[j].header.long == t;
    assert hs[j] in hs;
  }

  /** Without that condition the invariant fails: a second header whose short
      name is the first header's long name turns the first alias into an
      alias of an alias. */
  lemma AliasChain(lines: seq<string>, h1: Header, h2: Header, k: string)
    requires |lines| == 2 && HeaderOf(lines[0]) == Some(h1) && HeaderOf(lines[1]) == Some(h2)
    requires AliasKey(h1) == Some(k) && AliasKey(h2) == Some(h1.long)
    requires k != h1.long && k != h2.long && h1.long != h2.long
    ensures Get(FlagTable(lines), k) == Some(Alias(h1.long))
    ensures Get(FlagTable(lines), h1.long) == Some(Alias(h2.long))
  {
    LaterHeaders(lines, h2);
    FirstAliasKept(lines, h1, h2, k);
    SecondAliasWins(lines, h1, h2);
  }

  lemma LaterHeaders(lines: seq<string>, h2: Header)
    requires |lines| == 2 && HeaderOf(lines[1]) == Some(h2)
    ensures Headers(Kinds(lines[1..])) == [h2] && Headers(Kinds(lines[2..])) == []
  {
    ClassifyHeader(lines[1]);
    assert lines[1..] == [lines[1]] && lines[2..] == [];
    assert Kinds(lines[2..]) == [];
    assert Kinds(lines[1..]) == [Classify(lines[1])] + Kinds([]);
    assert Headers(Kinds(lines[1..])) == [h2] + Headers([]);
  }

  lemma FirstAliasKept(lines: seq<string>, h1: Header, h2: Header, k: string)
    requires |lines| == 2 && HeaderOf(lines[0]) == Some(h1)
    requires Headers(Kinds(lines[1..])) == [h2]
    requires AliasKey(h1) == Some(k) && AliasKey(h2) != Some(k) && k != h1.long && k != h2.long
    ensures Get(FlagTable(lines), k) == Some(Alias(h1.long))
  {
    assert !Writes(h2, k);
    FlagTableLastWrite(lines, 0, k);
  }

  lemma SecondAliasWins(lines: seq<string>, h1: Header, h2: Header)
    requires |lines| == 2 && HeaderOf(lines[1]) == Some(h2)
    requires Headers(Kinds(lines[2..])) == []
    requires AliasKey(h2) == Some(h1.long) && h1.long != h2.long
    ensures Get(FlagTable(lines), h1.long) == Some(Alias(h2.long))
  {
    FlagTableLastWrite(lines, 1, h1.long);
  }

  /** `-x, --aa  int <d1>` followed by `--aa, --bb  int <d2>`: group 1 of the
      second line is `--aa, `, so `-x` is an alias of `--aa`, which is itself
      an alias of `--bb`. */
  lemma AliasChainExample(d1: string, d2: string)
    requires d1 != [] && IsTrimmed(d1) && All(d1, IsNotLineTerminator)
    requires d2 != [] && IsTrimmed(d2) && All(d2, IsNotLineTerminator)
    ensures var table := FlagTable(["-x, --aa  int " + d1, "--aa, --bb  int " + d2]);
      Get(table, "-x") == Some(Alias("--aa")) && Get(table, "--aa") == Some(Alias("--bb"))
  {
    var lines := ["-x, --aa  int " + d1, "--aa, --bb  int " + d2];
    ChainParts();
    DescriptionAfterSpace(d1);
    DescriptionAfterSpace(d2);
    ChainLines(d1, d2);
    HeaderWithShort(lines[0], "x", " ", "--aa", "  int", 2, " " + d1);
    HeaderWithShort(lines[1], "-aa", " ", "--bb", "  int", 2, " " + d2);
    var h1 := Header(Some("-x"), "--aa", "int", [d1]);
    var h2 := Header(Some("--aa"), "--bb", "int", [d2]);
    AliasChain(lines, h1, h2, "-x");
  }

  lemma ChainParts()
    ensures All("x", IsWordOrDash) && All("-aa", IsWordOrDash) && All(" ", IsSpace)
    ensures All("--aa"[2..], IsWordChar) && All("--bb"[2..], IsWordChar) && TypeAt("  int", 2)
    ensures "  int"[2..] == "int" && ['-'] + "x" == "-x" && ['-'] + "-aa" == "--aa"
    ensures AliasKey(Header(Some("-x"), "--aa", "int", [])) == Some("-x")
  {
    assert "--aa"[2..] == "aa" && "--bb"[2..] == "bb";
    assert "  int"[..2] == "  " && "  int"[2..] == "int";
  }

  lemma ChainLines(d1: string, d2: string)
    ensures ['-'] + "x" + [','] + " " + "--aa" + "  int" + (" " + d1) == "-x, --aa  int " + d1
    ensures ['-'] + "-aa" + [','] + " " + "--bb" + "  int" + (" " + d2) == "--aa, --bb  int " + d2
  {
  }
}

=== FILE: ordered_dict.dfy ===
/** A JavaScript object used as a dictionary from string keys: entries keep
    the order in which their keys were first assigned, and assigning to a key
    that is already present replaces its value where it stands. */
module OrderedDict {
  import opened Wrappers

  type Dict<V> = seq<(string, V)>

  /** The keys in enumeration order (`Object.keys`). */
  function Keys<V>(d: Dict<V>): (ks: seq<string>)
    ensures |ks| == |d|
    ensures forall i | 0 <= i < |d| :: ks[i] == d[i].0
  {
    if d == [] then [] else [d[0].0] + Keys(d[1..])
  }

  /** No key occurs twice: what every JavaScript object satisfies. */
  predicate DistinctKeys<V>(d: Dict<V>) {
    forall i, j | 0 <= i < j < |d| :: d[i].0 != d[j].0
  }

  /** `d[k]`, or None when `k` is not a key of `d`. */
  function Get<V>(d: Dict<V>, k: string): (r: Option<V>)
    ensures r.None? <==> k !in Keys(d)
  {
    if d == [] then None
    else if d[0].0 == k then Some(d[0].1)
    else Get(d[1..], k)
  }

  /** `d[k] = v`: a new key goes to the end, an existing key keeps its place. */
  function Put<V>(d: Dict<V>, k: string, v: V): Dict<V>
  {
    if d == [] then [(k, v)]
    else if d[0].0 == k then [(k, v)] + d[1..]
    else [d[0]] + Put(d[1..], k, v)
  }

  /** After `d[k] = v`, `d[k]` is `v`; a new key goes to the end of the
      enumeration order, an existing key keeps its place. */
  lemma PutGetKeys<V>(d: Dict<V>, k: string, v: V)
    ensures Get(Put(d, k, v), k) == Some(v)
    ensures k in Keys(d) ==> Keys(Put(d, k, v)) == Keys(d)
    ensures k !in Keys(d) ==> Keys(Put(d, k, v)) == Keys(d) + [k]
  {
    PutGet(d, k, v);
    PutKeys(d, k, v);
  }

  lemma {:induction false} PutGet<V>(d: Dict<V>, k: string, v: V)
    ensures Get(Put(d, k, v), k) == Some(v)
    decreases |d|
  {
    if d != [] && d[0].0 != k {
      PutGet(d[1..], k, v);
      assert Put(d, k, v)[1..] == Put(d[1..], k, v);
    }
  }

  lemma {:induction false} PutKeys<V>(d: Dict<V>, k: string, v: V)
    ensures k in Keys(d) ==> Keys(Put(d, k, v)) == Keys(d)
    ensures k !in Keys(d) ==> Keys(Put(d, k, v)) == Keys(d) + [k]
    decreases |d|
  {
    if d != [] {
      var r := Put(d, k, v);
      if d[0].0 == k {
        assert r[1..] == d[1..];
      } else {
        PutKeys(d[1..], k, v);
        PutHead(d, k, v);
      }
    }
  }

  /** Past a first entry with another key, assignment works on the rest. */
  lemma PutHead<V>(d: Dict<V>, k: string, v: V)
    requires d != [] && d[0].0 != k
    ensures Keys(Put(d, k, v)) == [d[0].0] + Keys(Put(d[1..], k, v))
    ensures Keys(d) == [d[0].0] + Keys(d[1..])
  {
    assert Put(d, k, v)[1..] == Put(d[1..], k, v);
  }

  /** Assignment leaves every other key's value as it was. */
  lemma {:induction false} GetPutOther<V>(d: Dict<V>, k: string, v: V, j: string)
    requires j != k
    ensures Get(Put(d, k, v), j) == Get(d, j)
    decreases |d|
  {
    if d != [] && d[0].0 != k {
      GetPutOther(d[1..], k, v, j);
    }
  }

  /** Assignment never duplicates a key. */
  lemma {:induction false} PutKeepsKeysDistinct<V>(d: Dict<V>, k: string, v: V)
    requires DistinctKeys(d)
    ensures DistinctKeys(Put(d, k, v))
  {
    var r := Put(d, k, v);
    PutGetKeys(d, k, v);
    forall i, j | 0 <= i < j < |r| ensures r[i].0 != r[j].0 {
      var ks := Keys(r);
      assert ks[i] == r[i].0 && ks[j] == r[j].0;
      if k in Keys(d) {
        assert Keys(d)[i] == d[i].0 && Keys(d)[j] == d[j].0;
      } else if j == |d| {
        assert r[i].0 == Keys(d)[i];
      } else {
        assert Keys(d)[i] == d[i].0 && Keys(d)[j] == d[j].0;
      }
    }
  }

  /** Two dictionaries whose entries have the same keys, place by place,
      enumerate the same keys. */
  lemma KeysAgree<U, V>(a: Dict<U>, b: Dict<V>)
    requires |a| == |b| && forall i | 0 <= i < |a| :: a[i].0 == b[i].0
    ensures Keys(a) == Keys(b)
  {
  }

  /** Assigning to a key not yet present appends an entry. */
  lemma {:induction false} PutNew<V>(d: Dict<V>, k: string, v: V)
    requires k !in Keys(d)
    ensures Put(d, k, v) == d + [(k, v)]
    decreases |d|
  {
    if d != [] {
      assert Keys(d) == [d[0].0] + Keys(d[1..]);
      PutNew(d[1..], k, v);
      assert d == [d[0]] + d[1..];
    }
  }

  /** Assigning the same key twice keeps only the second value, in the place
      the first assignment gave the key. */
  lemma {:induction false} PutPut<V>(d: Dict<V>, k: string, v: V, w: V)
    ensures Put(Put(d, k, v), k, w) == Put(d, k, w)
    decreases |d|
  {
    if d != [] && d[0].0 != k {
      PutPut(d[1..], k, v, w);
      assert Put(d, k, v)[1..] == Put(d[1..], k, v);
    }
  }

  /** Looking a key up in an extended dictionary: the first entry with that
      key wins. */
  lemma {:induction false} GetSnoc<V>(d: Dict<V>, e: (string, V), k: string)
    ensures Get(d + [e], k) == if k in Keys(d) then Get(d, k) else if k == e.0 then Some(e.1) else None
    decreases |d|
  {
    if d != [] {
      assert (d + [e])[1..] == d[1..] + [e];
      assert Keys(d) == [d[0].0] + Keys(d[1..]);
      GetSnoc(d[1..], e, k);
    }
  }

  /** A prefix of a dictionary without repeated keys has none either, and
      does not hold the key of the entry after it. */
  lemma DistinctSnoc<V>(d: Dict<V>, e: (string, V))
    requires DistinctKeys(d + [e])
    ensures DistinctKeys(d) && e.0 !in Keys(d)
  {
    forall i | 0 <= i < |d| ensures d[i].0 != e.0 {
      assert (d + [e])[i] == d[i] && (d + [e])[|d|] == e;
    }
    forall i, j | 0 <= i < j < |d| ensures d[i].0 != d[j].0 {
      assert (d + [e])[i] == d[i] && (d + [e])[j] == d[j];
    }
  }
}

=== FILE: text.dfy ===
/** The Option wrapper used for values that may be absent (a failed process,
    a line that is not a header, a key that is not in a dictionary). */
module Wrappers {
  datatype Option<+T> = None | Some(value: T)
}

/** The JavaScript string built-ins the generator relies on (`trim`,
    `split("\n")`, `join`, `replace(",", "")`) and the character classes of
    its regular expressions, restricted to ASCII. */
module Text {

  /** `\s` and the characters `trim()` removes, restricted to ASCII:
      space, tab, line feed, carriage return, vertical tab, form feed. */
  predicate IsSpace(c: char) {
    c == ' ' || c == '\t' || c == '\n' || c == '\r' || c as int == 0x0B || c as int == 0x0C
  }

  /** `\w`: ASCII letters, digits and the underscore. */
  predicate IsWordChar(c: char) {
    ('a' <= c <= 'z') || ('A' <= c <= 'Z') || ('0' <= c <= '9') || c == '_'
  }

  /** `\d` */
  predicate IsDigit(c: char) {
    '0' <= c <= '9'
  }

  /** The characters the regular-expression `.` does not match (ASCII part). */
  predicate IsLineTerminator(c: char) {
    c == '\n' || c == '\r'
  }

  predicate IsNotSpace(c: char) {
    !IsSpace(c)
  }

  predicate IsNotLineTerminator(c: char) {
    !IsLineTerminator(c)
  }

  /** Every character of `s` is in the class `P`. */
  predicate All(s: string, P: char -> bool) {
    forall j | 0 <= j < |s| :: P(s[j])
  }

  /** `All` over a slice is the same as over its index range. */
  lemma AllSlice(s: string, lo: nat, hi: nat, P: char -> bool)
    requires lo <= hi <= |s|
    ensures All(s[lo..hi], P) <==> forall k | lo <= k < hi :: P(s[k])
  {
    if All(s[lo..hi], P) {
      forall k | lo <= k < hi ensures P(s[k]) {
        assert s[k] == s[lo..hi][k - lo];
      }
    }
  }

  /** `All` over a prefix, in terms of indices. */
  lemma AllPrefix(s: string, i: nat, P: char -> bool)
    requires i <= |s|
    ensures All(s[..i], P) <==> forall k | 0 <= k < i :: P(s[k])
  {
    assert s[..i] == s[0..i];
    AllSlice(s, 0, i, P);
  }

  /** `All` over a suffix, in terms of indices. */
  lemma AllSuffix(s: string, i: nat, P: char -> bool)
    requires i <= |s|
    ensures All(s[i..], P) <==> forall k | i <= k < |s| :: P(s[k])
  {
    assert s[i..] == s[i..|s|];
    AllSlice(s, i, |s|, P);
  }

  /** `All` over a slice of a slice, in terms of the outer indices. */
  lemma AllSubSlice(s: string, lo: nat, hi: nat, a: nat, b: nat, P: char -> bool)
    requires lo <= hi <= |s| && a <= b <= hi - lo
    ensures All(s[lo..hi][a..b], P) <==> forall k | lo + a <= k < lo + b :: P(s[k])
  {
    var t := s[lo..hi];
    forall k | lo + a <= k < lo + b ensures t[a..b][k - lo - a] == s[k] {
    }
    if forall k | lo + a <= k < lo + b :: P(s[k]) {
      forall j | 0 <= j < b - a ensures P(t[a..b][j]) {
        assert t[a..b][j] == s[lo + a + j];
      }
    }
  }

  /** End of the longest run of `P`-characters that starts at index `i`
      (a greedy `P*` starting at `i`). */
  function RunEnd(s: string, i: nat, P: char -> bool): (e: nat)
    requires i <= |s|
    ensures i <= e <= |s|
    ensures forall j | i <= j < e :: P(s[j])
    ensures e == |s| || !P(s[e])
    decreases |s| - i
  {
    if i == |s| || !P(s[i]) then i else RunEnd(s, i + 1, P)
  }

  /** A run of `P`-characters that stops at the end or at a non-`P`
      character is the longest one. */
  lemma RunEndUnique(s: string, i: nat, j: nat, P: char -> bool)
    requires i <= j <= |s|
    requires forall k | i <= k < j :: P(s[k])
    requires j == |s| || !P(s[j])
    ensures RunEnd(s, i, P) == j
  {
  }

  /** The longest run reaches at least as far as any run. */
  lemma RunEndCovers(s: string, i: nat, j: nat, P: char -> bool)
    requires i <= j <= |s|
    requires forall k | i <= k < j :: P(s[k])
    ensures j <= RunEnd(s, i, P)
  {
  }

  /** `s.trimStart()` */
  function TrimStart(s: string): (r: string)
    ensures |r| <= |s| && r == s[|s| - |r|..]
    ensures All(s[..|s| - |r|], IsSpace)
    ensures r == [] || !IsSpace(r[0])
  {
    if s != [] && IsSpace(s[0]) then TrimStart(s[1..]) else s
  }

  /** `s.trimEnd()` */
  function TrimEnd(s: string): (r: string)
    ensures |r| <= |s| && r == s[..|r|]
    ensures All(s[|r|..], IsSpace)
    ensures r == [] || !IsSpace(r[|r| - 1])
  {
    if s != [] && IsSpace(s[|s| - 1]) then TrimEnd(s[..|s| - 1]) else s
  }

  /** `s.trim()`: `s` without its leading and trailing whitespace. */
  function Trim(s: string): (r: string)
    ensures r == [] || (!IsSpace(r[0]) && !IsSpace(r[|r| - 1]))
    ensures |r| <= |s|
  {
    TrimEnd(TrimStart(s))
  }

  /** Whitespace-free at both ends: what `trim()` returns. */
  predicate IsTrimmed(s: string) {
    s == [] || (!IsSpace(s[0]) && !IsSpace(s[|s| - 1]))
  }

  lemma {:induction false} TrimStartOf(a: string, t: string)
    requires All(a, IsSpace)
    requires t == [] || !IsSpace(t[0])
    ensures TrimStart(a + t) == t
    decreases |a|
  {
    if a == [] {
      assert a + t == t;
    } else {
      assert (a + t)[0] == a[0];
      assert (a + t)[1..] == a[1..] + t;
      TrimStartOf(a[1..], t);
    }
  }

  lemma {:induction false} TrimEndOf(t: string, b: string)
    requires All(b, IsSpace)
    requires t == [] || !IsSpace(t[|t| - 1])
    ensures TrimEnd(t + b) == t
    decreases |b|
  {
    if b == [] {
      assert t + b == t;
    } else {
      assert (t + b)[|t + b| - 1] == b[|b| - 1];
      assert (t + b)[..|t + b| - 1] == t + b[..|b| - 1];
      TrimEndOf(t, b[..|b| - 1]);
    }
  }

  /** The characterisation of `trim()`: whatever whitespace surrounds a
      string that begins and ends with a non-space character (or is empty)
      is exactly what `trim()` removes. */
  lemma TrimOf(a: string, m: string, b: string)
    requires All(a, IsSpace) && All(b, IsSpace)
    requires IsTrimmed(m)
    ensures Trim(a + m + b) == m
  {
    if m == [] {
      assert a + m + b == a + b;
      assert All(a + b, IsSpace);
    } else {
      assert a + m + b == a + (m + b);
      TrimStartOf(a, m + b);
      TrimEndOf(m, b);
    }
  }

  /** A string trims to "" exactly when it is all whitespace. */
  lemma TrimEmptyIffAllSpace(s: string)
    ensures Trim(s) == [] <==> All(s, IsSpace)
  {
    var u := TrimStart(s);
    if Trim(s) == [] {
      assert All(u[0..], IsSpace);
      assert u == [];
      assert s[..|s|] == s;
    }
  }

  /** `parts.join(sep)` */
  function Join(sep: string, parts: seq<string>): string
    decreases |parts|
  {
    if |parts| == 0 then ""
    else if |parts| == 1 then parts[0]
    else parts[0] + sep + Join(sep, parts[1..])
  }

  /** `s.split(sep)` for a one-character separator: the pieces between the
      separators, one more piece than there are separators. */
  function Split(s: string, sep: char): (parts: seq<string>)
    ensures |parts| >= 1
    ensures forall i | 0 <= i < |parts| :: sep !in parts[i]
    decreases |s|
  {
    if s == [] then [""]
    else
      var rest := Split(s[1..], sep);
      if s[0] == sep then [""] + rest
      else [[s[0]] + rest[0]] + rest[1..]
  }

  /** Joining the pieces of a split with the separator gives back the text. */
  lemma {:induction false} JoinSplit(s: string, sep: char)
    ensures Join([sep], Split(s, sep)) == s
    decreases |s|
  {
    if s != [] {
      var rest := Split(s[1..], sep);
      JoinSplit(s[1..], sep);
      if s[0] == sep {
        assert Split(s, sep)[1..] == rest;
        assert [sep] + s[1..] == s;
      } else if |rest| == 1 {
        assert [s[0]] + s[1..] == s;
      } else {
        var parts := Split(s, sep);
        assert parts[1..] == rest[1..];
        assert Join([sep], parts) == [s[0]] + rest[0] + [sep] + Join([sep], rest[1..]);
        assert [s[0]] + s[1..] == s;
      }
    }
  }

  /** `s.replace(c, "")` with a one-character string pattern: only the first
      occurrence is removed. */
  function RemoveFirst(s: string, c: char): (r: string)
    ensures c !in s ==> r == s
    ensures |r| == if c in s then |s| - 1 else |s|
    decreases |s|
  {
    if s == [] then s
    else if s[0] == c then s[1..]
    else [s[0]] + RemoveFirst(s[1..], c)
  }

  /** What `replace` removes is the first occurrence, and nothing else. */
  lemma {:induction false} RemoveFirstAt(s: string, c: char, i: nat)
    requires i < |s| && s[i] == c && c !in s[..i]
    ensures RemoveFirst(s, c) == s[..i] + s[i + 1..]
    decreases i
  {
    if i > 0 {
      assert s[0] in s[..i];
      assert s[1..][..i - 1] == s[1..i];
      RemoveFirstAt(s[1..], c, i - 1);
      assert s[..i] == [s[0]] + s[1..][..i - 1];
    }
  }
}

=== FILE: version.dfy ===
/** The version detector: `getCliVersion` runs `avalanche --version` and keeps
    the leftmost match of `/\d+\.\d+\.\d+/`, prefixed with `v`, or reports
    "Unknown". */
module Version {
  import opened Wrappers
  import opened Text

  const VersionCommand := "avalanche --version"
  const UnknownVersion := "Unknown"

  predicate AllDigits(s: string) {
    All(s, IsDigit)
  }

  /** `t` is in the language of `\d+\.\d+\.\d+`. */
  ghost predicate IsVersionToken(t: string) {
    exists i, j :: DotsAt(t, i, j)
  }

  /** `t` is three non-empty digit runs separated by the dots at `i` and `j`. */
  predicate DotsAt(t: string, i: int, j: int) {
    0 < i && i + 1 < j && j + 1 < |t| &&
    AllDigits(t[..i]) && t[i] == '.' && AllDigits(t[i + 1..j]) && t[j] == '.' && AllDigits(t[j + 1..])
  }

  /** What the engine needs at `p` for a match: a digit run ending in '.',
      a second digit run ending in '.', and a third digit run. */
  predicate HasMatchAt(s: string, p: nat)
    requires p <= |s|
  {
    var a := RunEnd(s, p, IsDigit);
    a > p && a < |s| && s[a] == '.' &&
    var b := RunEnd(s, a + 1, IsDigit);
    b > a + 1 && b < |s| && s[b] == '.' &&
    RunEnd(s, b + 1, IsDigit) > b + 1
  }

  /** The end of the match of `\d+\.\d+\.\d+` that the regular expression
      engine finds when it starts at `p` (every `\d+` greedy), if any. */
  function MatchAt(s: string, p: nat): (r: Option<nat>)
    requires p <= |s|
    ensures r.Some? ==> p < r.value <= |s| && IsVersionToken(s[p..r.value])
    ensures r.Some? ==> r.value == |s| || !IsDigit(s[r.value])
    ensures r.None? ==> forall e | p <= e <= |s| :: !IsVersionToken(s[p..e])
  {
    if HasMatchAt(s, p) then
      var a := RunEnd(s, p, IsDigit);
      var b := RunEnd(s, a + 1, IsDigit);
      var c := RunEnd(s, b + 1, IsDigit);
      RunsFormToken(s, p, a, b, c);
      Some(c)
    else
      assert forall e | p <= e <= |s| :: !IsVersionToken(s[p..e]) by {
        forall e | p <= e <= |s| && IsVersionToken(s[p..e]) ensures false {
          TokenHasRuns(s, p, e);
        }
      }
      None
  }

  lemma RunsFormToken(s: string, p: nat, a: nat, b: nat, c: nat)
    requires p < a && a + 1 < b && b + 1 < c <= |s|
    requires forall k | p <= k < a :: IsDigit(s[k])
    requires forall k | a + 1 <= k < b :: IsDigit(s[k])
    requires forall k | b + 1 <= k < c :: IsDigit(s[k])
    requires s[a] == '.' && s[b] == '.'
    ensures IsVersionToken(s[p..c])
  {
    var t := s[p..c];
    var i, j := a - p, b - p;
    AllSubSlice(s, p, c, 0, i, IsDigit);
    AllSubSlice(s, p, c, i + 1, j, IsDigit);
    AllSubSlice(s, p, c, j + 1, |t|, IsDigit);
    assert DotsAt(t, i, j);
  }

  /** Every token starting at `p` is made of the runs `HasMatchAt` finds. */
  lemma TokenHasRuns(s: string, p: nat, e: nat)
    requires p <= e <= |s| && IsVersionToken(s[p..e])
    ensures HasMatchAt(s, p)
  {
    var t := s[p..e];
    var i, j :| DotsAt(t, i, j);
    assert t[..i] == t[0..i];
    DigitsUpToDot(s, p, e, 0, i);
    DigitsUpToDot(s, p, e, i + 1, j);
    DigitsToEnd(s, p, e, j + 1);
    RunsMatch(s, p, p + i, p + j);
  }

  /** A digit run of a token that stops at one of its dots. */
  lemma DigitsUpToDot(s: string, p: nat, e: nat, a: nat, b: nat)
    requires p <= e <= |s| && a <= b < e - p
    requires AllDigits(s[p..e][a..b]) && s[p..e][b] == '.'
    ensures p + b < |s| && RunEnd(s, p + a, IsDigit) == p + b && s[p + b] == '.'
  {
    AllSubSlice(s, p, e, a, b, IsDigit);
    RunEndUnique(s, p + a, p + b, IsDigit);
  }

  /** The last digit run of a token is not empty. */
  lemma DigitsToEnd(s: string, p: nat, e: nat, c: nat)
    requires p <= e <= |s| && c < e - p && AllDigits(s[p..e][c..])
    ensures RunEnd(s, p + c, IsDigit) > p + c
  {
    assert s[p + c] == s[p..e][c..][0];
  }

  /** `HasMatchAt` from the ends of its first two runs. */
  lemma RunsMatch(s: string, p: nat, a: nat, b: nat)
    requires p < a && a + 1 < b < |s|
    requires RunEnd(s, p, IsDigit) == a && s[a] == '.'
    requires RunEnd(s, a + 1, IsDigit) == b && s[b] == '.'
    requires b + 1 <= |s| && RunEnd(s, b + 1, IsDigit) > b + 1
    ensures HasMatchAt(s, p)
  {
  }

  /** The leftmost match at or after position `p`: its start and end. */
  function FirstMatchFrom(s: string, p: nat): (r: Option<(nat, nat)>)
    requires p <= |s|
    ensures r.Some? ==> p <= r.value.0 < r.value.1 <= |s| && MatchAt(s, r.value.0) == Some(r.value.1)
    ensures r.Some? ==> forall q, e | p <= q < r.value.0 && q <= e <= |s| :: !IsVersionToken(s[q..e])
    ensures r.None? ==> forall q, e | p <= q <= e <= |s| :: !IsVersionToken(s[q..e])
    decreases |s| - p
  {
    match MatchAt(s, p)
    case Some(e) => Some((p, e))
    case None =>
      if p == |s| then None else FirstMatchFrom(s, p + 1)
  }

  /** The version string reported for the output of `avalanche --version`,
      or for its failure. */
  function VersionOf(output: Option<string>): (v: string)
    ensures output.None? ==> v == UnknownVersion
    ensures v == UnknownVersion || (|v| > 1 && v[0] == 'v' && IsVersionToken(v[1..]))
  {
    match output
    case None => UnknownVersion
    case Some(s) =>
      match FirstMatchFrom(s, 0)
      case Some((p, e)) => "v" + s[p..e]
      case None => UnknownVersion
  }

  /** `getCliVersion` over the process oracle `run`: "Unknown" when the
      command fails, otherwise "Unknown" or `v` followed by a dotted
      three-number version. */
  function CliVersion(run: string -> Option<string>): (v: string)
    ensures run(VersionCommand).None? ==> v == UnknownVersion
    ensures v == UnknownVersion || (|v| > 1 && v[0] == 'v' && IsVersionToken(v[1..]))
  {
    VersionOf(run(VersionCommand))
  }

  /** Soundness, leftmostness and greediness of the reported version: it is
      `v` followed by a substring of the output that has the dotted
      three-number shape, no such substring starts further left, and the last
      number is not cut short. */
  lemma VersionIsLeftmostMatch(s: string)
    requires VersionOf(Some(s)) != UnknownVersion
    ensures exists p, e | 0 <= p < e <= |s| ::
      VersionOf(Some(s)) == "v" + s[p..e] && IsVersionToken(s[p..e])
      && (e == |s| || !IsDigit(s[e]))
      && forall q, e' | 0 <= q < p && q <= e' <= |s| :: !IsVersionToken(s[q..e'])
  {
    var r := FirstMatchFrom(s, 0);
    var (p, e) := r.value;
    assert VersionOf(Some(s)) == "v" + s[p..e];
  }

  /** "Unknown" is reported exactly when the command fails or its output holds
      no dotted three-number substring. */
  lemma UnknownIffNoMatch(output: Option<string>)
    ensures VersionOf(output) == UnknownVersion <==>
      (output.None? || forall q, e | 0 <= q <= e <= |output.value| :: !IsVersionToken(output.value[q..e]))
  {
    if output.Some? {
      var s := output.value;
      match FirstMatchFrom(s, 0)
      case Some((p, e)) =>
        assert ("v" + s[p..e])[0] != UnknownVersion[0];
      case None =>
    }
  }

  /** The greedy, leftmost match on an output with four components keeps the
      first three: "1.2.3.4" gives "v1.2.3". */
  lemma FourComponentsKeepThree()
    ensures VersionOf(Some("1.2.3.4")) == "v1.2.3"
  {
    var s := "1.2.3.4";
    RunEndUnique(s, 0, 1, IsDigit);
    RunEndUnique(s, 2, 3, IsDigit);
    RunEndUnique(s, 4, 5, IsDigit);
    assert HasMatchAt(s, 0);
    assert MatchAt(s, 0) == Some(5);
    assert s[0..5] == "1.2.3";
  }
}
